=== FILE: README.md ===
# Alpaca SafetyMonitor bridge — a Dafny model of the server core

This project models the Node.js server of an ASCOM Alpaca SafetyMonitor
simulator. That server emulates one SafetyMonitor device over the ASCOM Alpaca
REST API and answers Alpaca discovery datagrams. It can bridge the safety state
to MQTT, keeps a YAML configuration, and logs through a level-filtered logger
whose output is also captured in a bounded in-memory buffer.

Every piece is written as a pure step function over immutable records: it takes
(state, input) and returns (new state, reply, emitted events / library calls /
log calls). The modules follow the server's files:

| module | file | what it holds |
|---|---|---|
| `Wrappers` | — | `Option` and `Result` |
| `JsValues` | — | the JavaScript values the server handles. It defines: truthiness, `String()`, `JSON.stringify`, own properties and object spread, `trim`, ASCII `toLowerCase`, and `Number()` up to the parsing of numeric text |
| `Logger` | `server/logger.cjs` | levels, the level filter, the console writers and the structured helpers |
| `DeviceState` | `server/state.cjs` | the device state, the response envelopes and the mutators with their events |
| `Alpaca` | `server/alpaca.cjs` | the router: management endpoints, the device-number gate, the SafetyMonitor endpoints |
| `Discovery` | `server/discovery.cjs` | the datagram handler of the discovery responder |
| `Mqtt` | `server/mqtt.cjs` | the MQTT manager as a state machine over library calls and library events |
| `Config` | `server/config.cjs` | the default tree, `mergeConfig`, and the `saveConfig` / `loadConfig` / `getConfig` flow |
| `Server` | `server/index.cjs` | the log buffer and the wrapped logger, the state-event log hooks, `/admin/safe` and `/admin/logs` |

Points where the code behaves differently from what its surface suggests are
modelled as written:

- The "negative device number" error 1028 is unreachable.
- A torn-down MQTT client's `close`, `offline` and `error` handlers still clear the manager's `connected` flag. A stale client's `connect` handler sets it and then subscribes through whatever client is current. When there is none, that subscribe throws a TypeError.
- The MQTT manager has no command parser and no reconnect timer, and nothing connects it to the device state.
- `saveConfig` forces `autoConnect` but `loadConfig` does not.
- An empty configuration file makes `mergeConfig` throw, so `loadConfig` falls back to the defaults.
- A section with an own `hasOwnProperty` property, such as `{mqtt: {hasOwnProperty: 1}}`, shadows the method `mergeConfig` calls, so the merge throws. `saveConfig` then returns false and keeps the old configuration, and `loadConfig` falls back to the defaults.
- A failed configuration write still replaces the in-memory configuration.

The discovery payload is `{"AlpacaPort":N}` with no space, as `JSON.stringify` writes it.

## Model

| member | source | states |
|---|---|---|
| Logger.LevelNamed | server/logger.cjs:7-12 | only the four names debug, info, warn and error denote levels |
| Logger.LevelsStrictlyOrdered | server/logger.cjs:7-12 | debug < info < warn < error, and distinct levels have distinct ranks |
| Logger.SetLevel | server/logger.cjs:17-21 | a known name becomes the current level; any other argument leaves the logger unchanged |
| Logger.ShouldLogNamed | server/logger.cjs:27-29 | `shouldLog(name)` holds iff name is a level whose rank is at least the current one (unknown names never log) |
| Logger.ShouldLogMonotone | server/logger.cjs:14-29 | the filter is monotone in the level; error always passes; initially debug is hidden and info shown |
| Logger.Write | server/logger.cjs:31-50 | a line is written iff the level passes the filter; warn and error go to stderr; the text is `[LEVEL] ts ` followed by the message; the metadata is printed as given, and a missing or null one as '' |
| Logger.WriteReadBack | server/logger.cjs:31-50 | every console line reads back as the level and the message it was written with |
| Logger.LogMqtt | server/logger.cjs:53-60 | message "MQTT {action}" at the given level; the metadata's `type` is 'mqtt' and its `action` the action unless the caller's data overrides them, every property of the data is present, and it has no other property |
| Logger.LogSafety | server/logger.cjs:62-74 | the message starts with "Safety {action}: ", continues with SAFE exactly when `safe` is truthy and UNSAFE otherwise, and ends with " (reason)" exactly when the reason is truthy; the metadata has type 'safety', the action, `safe`, `reason` (when given) and the caller's data, which wins on a clash, and nothing else |
| Logger.LogClient | server/logger.cjs:76-84 | message "Client {action}: {String(clientId)}"; metadata of type 'client' with the action, the caller's data, and the `clientId` unless the data carries one, and no other property |
| Logger.LogServer | server/logger.cjs:86-93 | message "Server {action}"; metadata of type 'server' with the action and every property of the caller's data, which wins on a clash, and no other property |
| Logger.TagOverridable | server/logger.cjs:53-93 | metadata starts with type and action; a `type` or `action` in the caller's data wins; its properties are exactly the tags, the helper's own fields and the data's |
| DeviceState.Init | server/state.cjs:7-21 | disconnected, no client, counter 0, health 'ok'; safe iff `defaultSafe` is null, undefined or truthy |
| DeviceState.ParseUIntOrZero | server/state.cjs:24-29 | NaN, infinities and negatives give 0; otherwise the truncated value |
| DeviceState.FindCI | server/state.cjs:31-35 | the value of the first property whose lower-cased name matches, even when a later one matches too; none when no name matches |
| DeviceState.GetParamCI | server/state.cjs:30-37 | the query's value unless it is missing or null, in which case the body's |
| DeviceState.ParamCaseInsensitive | server/state.cjs:30-37 | two spellings of a key that lower-case alike read the same parameter |
| DeviceState.QueryFirstMatch | server/state.cjs:30-37 | the first matching query property decides unless it is null, in which case the body is read |
| DeviceState.Ok | server/state.cjs:38-46 | counter +1 and only that; the envelope carries the new id, the value, error 0 and '' |
| DeviceState.ErrBody | server/state.cjs:47-54 | counter +1 and only that; no Value; error number defaults to 1024 |
| DeviceState.SetConnected | server/state.cjs:57-59 | `connected` becomes the truthiness of the argument; nothing else changes |
| DeviceState.SetHealth | server/state.cjs:70-73 | always stores and always emits `healthChanged` |
| DeviceState.SetSafe | server/state.cjs:76-84 | an event and a change stamp iff the flag flips; reason defaults to 'manual'; no flip leaves the state untouched |
| DeviceState.SetClientConnected | server/state.cjs:87-94 | last-seen stamp always moves; event iff the flag flips; source defaults to 'alpaca' |
| DeviceState.SetSafeRepeatIsSilent | server/state.cjs:76-84 | setting the same value twice: the second call is silent and changes nothing |
| DeviceState.SafeEventsMatchTransitions | server/state.cjs:76-84 | over any run of setSafe calls: one safeChanged event per flip, carrying values that alternate starting from the opposite of the initial flag; the last value wins; the counter is untouched |
| Alpaca.DeviceGate | server/alpaca.cjs:47-56 | 1027 iff not all digits; pass iff all digits are '0'; 1029 iff some digit is not '0' |
| Alpaca.NegativeUnreachable | server/alpaca.cjs:50-53 | the 1028 branch is never taken; "-1" is 1027, "0" and "000" pass, "5" is 1029 |
| Alpaca.Management | server/alpaca.cjs:8-43 | the management routes emit no state events and spend one transaction id per reply |
| Alpaca.Gated | server/alpaca.cjs:47-56 | every gate refusal spends one id; a device that passes the gate on a member path is handed to the device routes unchanged |
| Alpaca.Accept | server/alpaca.cjs:70-79 | an accepted value sets both `connected` and `clientConnected` to it, stamps the sighting, emits a client-connection event from source 'alpaca' iff the client flag flips, and answers 200 with a null Value and error 0 |
| Alpaca.PutConnected | server/alpaca.cjs:63-80 | every reply spends one transaction id and leaves the safety state alone |
| Alpaca.IsSafe | server/alpaca.cjs:107-111 | spends one transaction id, never touches the safety flag |
| Alpaca.DeviceRoute | server/alpaca.cjs:58-111 | every reply spends one transaction id; an unrouted request changes nothing |
| Alpaca.Handle | server/alpaca.cjs:8-111 | every JSON reply bumps the counter by exactly one and carries the new id; unrouted requests change nothing; no endpoint touches the safety flag; only client-connection events occur |
| Alpaca.MalformedDeviceNumber | server/alpaca.cjs:50-51 | a non-digit device segment is 400/1027 with the next id, no event, only the counter moving |
| Alpaca.UnknownDevice | server/alpaca.cjs:52-55 | an all-digit device segment gets 404/1029 iff it has a non-zero digit |
| Alpaca.PutConnectedSemantics | server/alpaca.cjs:63-80 | missing value 400/1025 and bad value 400/1026, both with no flag change and no event; true/1 and false/0 set both flags, Value null, error 0, and emit a client-connection event from 'alpaca' iff the client flag flips |
| Alpaca.ConnectedSpellingsAgree | server/alpaca.cjs:69-78 | any two accepted spellings of the same truth value give identical results |
| Alpaca.ConnectedRead | server/alpaca.cjs:59-61 | GET or HEAD connected answers the `connected` flag with error 0, spends one id and changes nothing else |
| Alpaca.IsSafeSemantics | server/alpaca.cjs:107-111 | connects, records an 'alpaca-poll' sighting, returns the current flag unchanged; an event only when the client was not yet connected |
| Alpaca.ConstantEndpoints | server/alpaca.cjs:82-104 | fixed values, one id spent, no other state change; the device list holds exactly device 0 |
| Alpaca.ManagementEndpoints | server/alpaca.cjs:8-43 | description, configured devices and API versions answer fixed values spending one id; other management paths are unrouted |
| Alpaca.TransactionIdsAreConsecutive | server/state.cjs:38-54 | across any request sequence the envelopes carry consecutive ids following the starting counter |
| Alpaca.FreshStateNumbering | server/state.cjs:12-54 | from a fresh state the k-th envelope carries id k |
| Discovery.BindAddress | server/discovery.cjs:5 | port 32227 and host 0.0.0.0 unless given |
| Discovery.DecodeAscii | server/discovery.cjs:19 | ASCII decoding keeps the low seven bits of every byte |
| Discovery.EncodeAscii | server/discovery.cjs:27 | ASCII encoding keeps the low byte of every character |
| Discovery.AsciiRoundTrip | server/discovery.cjs:19-27 | decoding inverts encoding on 7-bit text |
| Discovery.PayloadCarriesPort | server/discovery.cjs:27 | the payload is exactly `{"AlpacaPort":N}`, is ASCII, and N reads back as the port |
| Discovery.OnMessage | server/discovery.cjs:18-36 | a request gets two sends (sender, then broadcast on the sender's port) with the same payload, after a debug log naming the sender as address:port and the advertised port; a throwing send is logged and skips the rest; anything else gets nothing |
| Discovery.HighBitIgnored | server/discovery.cjs:19-20 | the high bit of any byte never changes whether a datagram is a request |
| Discovery.PaddedMixedCaseIsRequest | server/discovery.cjs:19-20 | " AlpacaDiscovery1\n" is a request |
| Discovery.OtherTextIgnored | server/discovery.cjs:20 | "notadiscovery" is not a request |
| Mqtt.NonEmpty | server/mqtt.cjs:30-31 | an empty user name or password is passed as undefined, any other as it is |
| Mqtt.Disconnect | server/mqtt.cjs:97-105 | with a client: end it, forget it, clear the flag, emit 'disconnected' once; without: nothing |
| Mqtt.Connect | server/mqtt.cjs:14-95 | starts with the full teardown and always stores the config. A disabled config opens no client and emits nothing. An enabled one makes exactly one library call, opening mqtt://host:port with empty credentials as undefined. A throwing open makes no call, emits one error, and logs the announcement then the failure |
| Mqtt.OnEvent | server/mqtt.cjs:40-90 | connect sets the flag and subscribes `{baseTopic}/command/safe` via the current client (TypeError without one); error/close/offline clear it; message counts +1 and is re-emitted raw; each event logs its one line with its level, message and metadata, close and offline reporting the flag as it was before |
| Mqtt.PublishOne | server/mqtt.cjs:107-121 | sends and returns true iff a client exists and is connected; otherwise warns and sends nothing |
| Mqtt.PublishAllSends | server/mqtt.cjs:107-121 | a list goes out in order, each retained, through a live client, and not at all otherwise |
| Mqtt.PublishStatus | server/mqtt.cjs:123-136 | no-op without config or connection; otherwise /status, /safe, /connected, /client, /uptime, retained, in this order |
| Mqtt.PublishAllWarns | server/mqtt.cjs:108-110 | with no client every publish of a list is refused with a warning |
| Mqtt.GetStatus | server/mqtt.cjs:138-152 | reports the flag and the counter; with a config, exactly its enabled, host, port, baseTopic and clientId, and no credential; null without one |
| Mqtt.TransitionsKeepValid | server/mqtt.cjs:14-105 | every transition keeps the current client one that was created from the stored config |
| Mqtt.DisconnectIdempotent | server/mqtt.cjs:97-105 | a second disconnect does nothing; the teardown is announced at most once |
| Mqtt.ConnectTearsDown | server/mqtt.cjs:15-17 | with a client, connect first ends it, logs and emits 'disconnected', and clears the flag |
| Mqtt.ConnectDisabledCreatesNoClient | server/mqtt.cjs:19-23 | a disabled config is stored but no client is created or opened |
| Mqtt.MessageCountedAndRelayed | server/mqtt.cjs:61-66 | a message bumps the counter by one and is emitted verbatim; nothing else changes |
| Mqtt.MessageCountTracksMessages | server/mqtt.cjs:61-66 | over any event run the counter grows by the number of messages; client and config stay put |
| Mqtt.LateCloseClearsConnected | server/mqtt.cjs:74-79 | a close from a replaced client clears `connected` while the current client stays |
| Mqtt.CloseReportsPriorFlag | server/mqtt.cjs:74-79 | `close` logs `wasConnected` as the flag stood before it: true right after a connect, false on a repeat |
| Mqtt.LateCloseScenario | server/mqtt.cjs:40-79 | connect, reconnect, then a late close from the old client: disconnected with the new client current, publishing refused |
| Mqtt.CredentialsNeverExposed | server/mqtt.cjs:138-152 | the status never depends on user name or password |
| Config.MergeConfig | server/config.cjs:78-101 | raises a TypeError exactly when some step raises, and otherwise yields the merged object; a null or undefined override raises wherever a default is an object |
| Config.FirstLoopOutcome | server/config.cjs:81-91 | the first loop over the default keys raises a TypeError as soon as any key it has reached raises, and if none raises it has assigned every key's entry in the order of the defaults |
| Config.MergeOutcome | server/config.cjs:78-101 | the merge run in program order fails exactly when the order-free throw condition holds, and otherwise builds the merged object |
| Config.DefaultMergeThrows | server/config.cjs:50 | merging over the defaults raises exactly when the override is null or undefined, or its server, mqtt or logging section has an own `hasOwnProperty` |
| Config.ShadowedHasOwnPropertyThrows | server/config.cjs:87-89 | `{mqtt: {hasOwnProperty: 1}}` makes the merge raise |
| Config.LeafLevelThrows | server/config.cjs:81-91 | a level of plain values whose defaults do not shadow `hasOwnProperty` raises exactly when its truthy override has an own `hasOwnProperty` |
| Config.DefaultsMergeCleanly | server/config.cjs:78-101 | merging the defaults over themselves does not raise |
| Config.MergeLookup | server/config.cjs:81-98 | a default key takes its entry's value; `__proto__` is never an own property; any other name takes the override's; a name in neither is absent |
| Config.DefaultKeysKept | server/config.cjs:81-91 | every key of the defaults appears in the result |
| Config.MergeRules | server/config.cjs:82-89 | leaf: an own property of a truthy override wins even when falsy, else the default; object: merged with `overrides[key] \|\| {}` |
| Config.ExtrasCopied | server/config.cjs:94-98 | override properties outside the defaults are copied unchanged, except `__proto__`, whose assignment adds no own property |
| Config.MergeWithEmpty | server/config.cjs:78-101 | merging a well-formed tree with `{}` reproduces it |
| Config.MergeWithSelf | server/config.cjs:78-101 | merging a well-formed tree over itself reproduces it |
| Config.SaveConfig | server/config.cjs:48-69 | a throwing merge leaves the current config and returns false; success requires the write to succeed |
| Config.GetConfig | server/config.cjs:71-76 | a cached config is returned as it is |
| Config.DefaultsWellFormed | server/config.cjs:8-27 | the default tree has unique keys at every level and an `mqtt` object |
| Config.DefaultsAsDocumented | server/config.cjs:8-27 | MQTT disabled, autoConnect true, port 1883, base topic alpaca/safetymonitor, HTTP port 11111 |
| Config.NormaliseRule | server/config.cjs:52-55 | autoConnect is set to true iff mqtt.enabled is truthy, and no other value changes |
| Config.MergedMqttSection | server/config.cjs:50 | the merge with the defaults always yields an `mqtt` object |
| Config.MissingFileLoadsDefaults | server/config.cjs:37-39 | without a file the defaults are loaded unchanged |
| Config.EmptyDocumentLoadsDefaults | server/config.cjs:33-44 | an empty or null document falls back to the defaults |
| Config.ParsedDocumentLoads | server/config.cjs:33-44 | a parsed document is merged without the autoConnect rule; one whose merge raises falls back to the defaults |
| Config.SaveForcesAutoConnect | server/config.cjs:48-69 | ok iff the merge does not raise and the write succeeds; a raising merge keeps the previous config; otherwise enabled MQTT implies autoConnect true and all other values are as merged |
| Server.Start | server/index.cjs:15-18 | a fresh device, an empty buffer, the initial logger |
| Server.Push | server/index.cjs:21-26 | the buffer becomes the last 500 of old-plus-new and ends with the new entry |
| Server.PushAll | server/index.cjs:21-26 | the buffer never exceeds 500 entries |
| Server.BufferIsRecentHistory | server/index.cjs:21-26 | after any number of pushes the buffer is exactly the most recent 500 entries, in order |
| Server.Emit | server/index.cjs:28-36 | each wrapped call appends one entry; the console gets the original writer's line exactly when the filter admits the level |
| Server.EmitAll | server/index.cjs:28-36 | wrapped logging touches neither the device nor the filter and keeps the bound |
| Server.EveryCallBuffered | server/index.cjs:28-36 | a run of logger calls leaves the buffer as the recent history extended by one entry per call |
| Server.ConsoleShowsAdmitted | server/index.cjs:29-35 | one console line per admitted call, and it is the original writer's line |
| Server.SuppressedCallStillBuffered | server/index.cjs:30-35 | a filtered-out call still reaches the buffer |
| Server.EventLog | server/index.cjs:46-54 | safeChanged and clientConnectionChanged log at info, healthChanged at warn, with the event fields |
| Server.ServeAlpaca | server/index.cjs:42-54 | the device changes as the router says; each state event adds one log entry; the level is unchanged and the console shows the writer's line for each admitted event log |
| Server.ServeDiscovery | server/discovery.cjs:18-36 | the datagram's sends; the responder's log calls are all buffered, and the admitted ones printed; the level and the device are untouched; a non-request changes nothing |
| Server.ParseSafe | server/index.cjs:104-107 | true iff JSON true, 1, or a string reading "true"/"1" once trimmed and lower-cased; false likewise; anything else refused |
| Server.AdminReason | server/index.cjs:102 | the body's reason whenever it is a string, and 'admin' in every other case |
| Server.AdminSafe | server/index.cjs:99-111 | refused: 400 and no change; accepted: setSafe with the parsed value, events logged then "Safety set via admin", buffered and printed when admitted, the level unchanged, and the reply's isSafe is the parsed value |
| Server.PaddedUpperCaseTrue | server/index.cjs:104-105 | " TRUE " is accepted as true |
| Server.OtherValuesRefused | server/index.cjs:105-107 | 2, null and a missing field are refused |
| Server.WordRefused | server/index.cjs:104-107 | a string that does not normalise to true/1/false/0 is refused |
| Server.YesRefused | server/index.cjs:104-107 | "yes" is refused |
| Server.LogsRequested | server/index.cjs:75 | default 200; clamped to [0,1000]; Infinity gives 1000 and -Infinity 0; NaN stays NaN |
| Server.AdminLogs | server/index.cjs:74-77 | a suffix of the buffer: all of it for 0 or NaN, otherwise the last min(n, size) |
| Server.AdminLogsDefault | server/index.cjs:75-76 | without n the last 200 entries (or all when fewer) |

## Left out

- `wrapper-server.cjs`, `wrapper-logger.cjs`, `vite.config.ts` and `src/router/index.ts` are not part of this model. They cover process spawning, proxying, a console wrapper and UI routing. The wrapper's log ring and `n` clamp repeat `index.cjs`, which is modelled.
- Express mechanics are left out:
  - middleware order, CORS, and body parsing;
  - percent-decoding and trailing slashes;
  - the body of Express's own 404 page.
  A request arrives as verb, path segments, query and body.
  `cors()` (server/index.cjs:38) answers every OPTIONS request with 204 before any router sees it. So the model's `OtherVerb` path through the device gate, which spends a transaction id, never runs for OPTIONS. The model does not treat OPTIONS specially, and its `Alpaca.Handle` covers only requests that reach the routers.
- Server-sent events (`/admin/logs/stream` and the `log` bus), `/admin/status`, `/admin/shutdown`, `listen` and the start-up log lines, and signal handling are left out. They are process and stream I/O.
- UDP socket creation, `setBroadcast`, `bind`, and the `listening` and `error` log lines of the discovery socket are foreign I/O.
- The MQTT library's options (`clean`, timeouts, keepalive, protocol version) and its internal reconnect are foreign. Their events are inputs to `Mqtt.OnEvent`.
- `Mqtt.OnEvent`: the event order the library guarantees is not imposed. Any created client may fire any event at any time.
- `Mqtt.PublishOne`: does not model a synchronous exception from the library's `publish` (server/mqtt.cjs:117-120). The library is foreign code, and no input of the model can make it throw.
- `Mqtt.Connect`: the configuration is a typed record in the shape of the defaults, not an arbitrary JavaScript value. MQTT message payloads arrive already decoded to text.
- The `emit('error')` of the MQTT manager is recorded as an emitted event. In Node an `error` event that no listener hears throws from `emit`. Registering a listener is the caller's job, and this code registers none, so in the source an unheard error throws where the model only records the event.
- `Number()` on text is JavaScript's own parser and is passed in as a function. Numbers are integers. Floating-point values are represented by their integer part wherever they are only truncated, as in `parseUIntOrZero` and the `n` of `/admin/logs`.
- `DeviceState.ParseUIntOrZero`: covers fractional numbers through their truncation only; a float that is not an integer is not a value of the model.
- `toLowerCase` is modelled on ASCII letters only (`AsciiLower`). Only two non-ASCII characters lowercase to text that contains an ASCII letter:
  - U+212A KELVIN SIGN becomes "k";
  - U+0130 becomes "i" followed by U+0307, which is not ASCII.

  The outcomes still agree:
  - None of the literals the server compares after lower-casing contains "k". Those are the parameter names `ClientTransactionID` and `Connected` (server/alpaca.cjs:9-110), the words `true`, `false`, `1` and `0` (server/alpaca.cjs:69-73, server/index.cjs:104-106), the magic `alpacadiscovery1` (server/discovery.cjs:19-20), and the route segments.
  - A text holding U+0130 lowercases to one holding U+0307, which cannot equal an ASCII literal.
- Objects are association lists in insertion order. JavaScript enumerates integer-like keys first in ascending order; that reordering is not modelled. Inherited (prototype) properties are not modelled either, and no value is a function.
- Config.MergeConfig: an own `__proto__` property of an override is not copied, as in the source, but the prototype its assignment installs on the result is not modelled. A default named `__proto__` is not modelled either; `DEFAULT_CONFIG` has none.
- A property whose value is `undefined` is left out of the metadata objects. Examples are the `clientId` of `logClient` and the `reason` of `logSafety` when they are not given. JSON output omits such a property as well; only `console.log` would show it.
- Timestamps (`Date.now()`, `toISOString()`) are inputs. One clock reading serves a whole handler, so all log entries of one request share it.
- Reading and writing `config.yaml`, YAML parsing and dumping, and `console.error` in the configuration code are I/O. Their outcome is an input (`ConfigFile`, `writeOk`).
- The structured logger helpers called with an unknown level name throw (`this[level]` is not a function). The model's `Level` type only has the four levels.
- `getLevel`, `getConnected`, `getIsSafe`, `getVersion`, `getClientConnected`, `getLastClientSeen` and `isConnected` are plain field reads.

=== FILE: alpaca.dfy ===
/** The Alpaca REST router (server/alpaca.cjs): the three management
    endpoints, the device-number gate in front of every
    `/api/v1/safetymonitor/{device}` path, and the SafetyMonitor endpoints.
    A request is a verb, its path segments and its query and body; the model
    returns the HTTP status with the envelope, the new state and the state
    events emitted while handling it. */
module Alpaca {
  import opened Wrappers
  import opened JsValues
  import opened DeviceState

  /** Express answers HEAD with the GET handler. */
  datatype Verb = Get | Head | Put | OtherVerb(name: string)

  /** A request: the path split at '/', already percent-decoded, with no
      empty segments; the parsed query object; the parsed body if any. */
  datatype Request = Request(verb: Verb, path: seq<string>, query: seq<Prop>, body: Option<JsValue>)

  /** `Json` is a `res.json` reply. `Unrouted` is a request no handler of the
      router takes: Express answers it with its own 404 page, and the device
      state is not involved. */
  datatype Response = Json(status: nat, envelope: Envelope) | Unrouted

  datatype Handled = Handled(state: State, response: Response, events: seq<StateEvent>)

  predicate Reads(v: Verb) {
    v.Get? || v.Head?
  }

  /** Express routes ignore letter case. */
  predicate SegmentIs(seg: string, lit: string) {
    AsciiLower(seg) == lit
  }

  predicate IsDevicePath(p: seq<string>) {
    |p| >= 4 && SegmentIs(p[0], "api") && SegmentIs(p[1], "v1") && SegmentIs(p[2], "safetymonitor") && p[3] != ""
  }

  // ---------------------------------------------------------------------------
  // Device-number gate
  // ---------------------------------------------------------------------------

  datatype Gate = BadNumber | Negative | NoDevice | Pass

  /** The middleware in front of every device path: digits only (`/^\d+$/`),
      then not negative, then device 0. */
  function DeviceGate(dev: string): (g: Gate)
    ensures g == BadNumber <==> dev == [] || !AllDigits(dev)
    ensures g == Pass <==> dev != [] && AllDigits(dev) && forall i :: 0 <= i < |dev| ==> dev[i] == '0'
    ensures g == NoDevice <==> dev != [] && AllDigits(dev) && exists i :: 0 <= i < |dev| && dev[i] != '0'
  {
    if dev == [] || !AllDigits(dev) then BadNumber
    else
      var n: int := DecimalValue(dev);
      DecimalValueZero(dev);
      if n < 0 then Negative
      else if n != 0 then NoDevice
      else Pass
  }

  /** The "negative device number" branch cannot be taken: a leading '-'
      already fails the digits-only test. */
  lemma NegativeUnreachable(dev: string)
    ensures DeviceGate(dev) != Negative
    ensures DeviceGate("-1") == BadNumber
    ensures DeviceGate("0") == Pass && DeviceGate("000") == Pass
    ensures DeviceGate("5") == NoDevice
  {
    assert !IsDigit("-1"[0]);
    assert !AllDigits("-1");
    assert "5"[0] != '0';
  }

  // ---------------------------------------------------------------------------
  // Fixed values
  // ---------------------------------------------------------------------------

  const ServerDescription: JsValue :=
    JObj([("ServerName", JStr("JS Alpaca Sim")), ("Manufacturer", JStr("GalaxyScape")),
          ("ManufacturerVersion", JStr(Version)), ("Location", JStr("localhost"))])

  const ConfiguredDevices: JsValue :=
    JArr([JObj([("DeviceName", JStr("SafetyMonitor")), ("DeviceType", JStr("SafetyMonitor")),
                ("DeviceNumber", JNum(0)), ("UniqueID", JStr("sim-safetymonitor-0"))])])

  const ApiVersions: JsValue := JArr([JNum(1)])

  /** The read-only device properties that do not depend on the state. */
  function ConstantProperty(member: string): Option<JsValue> {
    if member == "description" then Some(JStr("JS SafetyMonitor"))
    else if member == "driverinfo" then Some(JStr("Alpaca SafetyMonitor Simulator (Node.js)"))
    else if member == "driverversion" then Some(JStr(Version))
    else if member == "name" then Some(JStr("SafetyMonitor-0"))
    else if member == "supportedactions" then Some(JArr([]))
    else if member == "interfaceversion" then Some(JNum(1))
    else None
  }

  // ---------------------------------------------------------------------------
  // Handlers
  // ---------------------------------------------------------------------------

  function Reply(status: nat, b: Built, events: seq<StateEvent>): Handled {
    Handled(b.state, Json(status, b.envelope), events)
  }

  /** What every handler keeps: one transaction id per envelope, none
      without one, the safety side of the state untouched, and only client
      connection events. */
  predicate Disciplined(s: State, h: Handled) {
    && (h.response.Json? ==> h.state.serverTransactionId == s.serverTransactionId + 1)
    && (h.response.Json? ==> h.response.envelope.serverTransactionId == h.state.serverTransactionId)
    && (h.response.Unrouted? ==> h.state == s && h.events == [])
    && h.state.isSafe == s.isSafe && h.state.health == s.health
    && h.state.lastChangeTs == s.lastChangeTs && h.state.lastReason == s.lastReason
    && (forall e :: e in h.events ==> e.ClientConnectionChanged?)
  }

  predicate IsTrueText(t: string) {
    t == "true" || t == "1"
  }

  predicate IsFalseText(t: string) {
    t == "false" || t == "0"
  }

  /** `PUT connected` */
  function PutConnected(s: State, req: Request, now: string, numberOf: string -> NumView): (h: Handled)
    ensures Disciplined(s, h) && h.response.Json?
    ensures h.response.envelope.errorNumber in {0, 1025, 1026}
  {
    var ctid := GetParamCI(req.query, req.body, "ClientTransactionID");
    var raw := GetParamCI(req.query, req.body, "Connected");
    if raw.None? then
      Reply(400, ErrBody(s, "Missing parameter: Connected", ctid, numberOf, Some(1025)), [])
    else
      var t := AsciiLower(Trim(ToJsString(raw)));
      if IsTrueText(t) then Accept(s, true, ctid, now, numberOf)
      else if IsFalseText(t) then Accept(s, false, ctid, now, numberOf)
      else
        Reply(400, ErrBody(s, "Invalid Connected value: " + ToJsString(raw), ctid, numberOf, Some(1026)), [])
  }

  /** An accepted `PUT connected`: both flags take the value, the reply has a
      null `Value`. */
  function Accept(s: State, v: bool, ctid: Option<JsValue>, now: string, numberOf: string -> NumView): (h: Handled)
    ensures Disciplined(s, h) && h.response.Json?
    ensures h.response.status == 200 && h.response.envelope.value == Some(JNull) && h.response.envelope.errorNumber == 0
    ensures h.state.connected == v && h.state.clientConnected == v && h.state.lastClientSeen == Some(now)
    ensures h.events == (if s.clientConnected == v then [] else [ClientConnectionChanged(v, "alpaca", now)])
  {
    var m := SetClientConnected(SetConnected(s, Some(JBool(v))), Some(JBool(v)), Some("alpaca"), now);
    Reply(200, Ok(m.state, JNull, ctid, numberOf), m.events)
  }

  /** `GET issafe`: a read that connects the device and records a poll. */
  function IsSafe(s: State, req: Request, now: string, numberOf: string -> NumView): (h: Handled)
    ensures Disciplined(s, h) && h.response.Json? && h.response.envelope.errorNumber == 0
  {
    var s1 := if !s.connected then SetConnected(s, Some(JBool(true))) else s;
    var m := SetClientConnected(s1, Some(JBool(true)), Some("alpaca-poll"), now);
    var ctid := GetParamCI(req.query, req.body, "ClientTransactionID");
    Reply(200, Ok(m.state, JBool(m.state.isSafe), ctid, numberOf), m.events)
  }

  /** The routes behind a device number that passed the gate. */
  function DeviceRoute(s: State, req: Request, member: string, now: string, numberOf: string -> NumView): (h: Handled)
    ensures Disciplined(s, h)
    ensures h.response.Json? ==> h.response.envelope.errorNumber in {0, 1025, 1026}
  {
    var ctid := GetParamCI(req.query, req.body, "ClientTransactionID");
    var m := AsciiLower(member);
    if m == "connected" && Reads(req.verb) then Reply(200, Ok(s, JBool(s.connected), ctid, numberOf), [])
    else if m == "connected" && req.verb.Put? then PutConnected(s, req, now, numberOf)
    else if m == "issafe" && Reads(req.verb) then IsSafe(s, req, now, numberOf)
    else if ConstantProperty(m).Some? && Reads(req.verb) then Reply(200, Ok(s, ConstantProperty(m).value, ctid, numberOf), [])
    else Handled(s, Unrouted, [])
  }

  /** The whole router. Every reply it builds costs exactly one transaction
      id; a request it does not route leaves the state alone. No endpoint
      touches the safety flag. */
  function Handle(s: State, req: Request, now: string, numberOf: string -> NumView): (h: Handled)
    ensures h.response.Json? ==> h.state.serverTransactionId == s.serverTransactionId + 1
    ensures h.response.Json? ==> h.response.envelope.serverTransactionId == h.state.serverTransactionId
    ensures h.response.Unrouted? ==> h.state == s && h.events == []
    ensures h.state.isSafe == s.isSafe && h.state.health == s.health
    ensures h.state.lastChangeTs == s.lastChangeTs && h.state.lastReason == s.lastReason
    ensures forall e :: e in h.events ==> e.ClientConnectionChanged?
    ensures IsDevicePath(req.path) && DeviceGate(req.path[3]) == Pass && |req.path| == 5 ==>
              h == DeviceRoute(s, req, req.path[4], now, numberOf)
  {
    var p := req.path;
    var h := if Reads(req.verb) && |p| >= 2 && SegmentIs(p[0], "management") then Management(s, req, numberOf)
             else if IsDevicePath(p) then Gated(s, req, now, numberOf)
             else Handled(s, Unrouted, []);
    assert IsDevicePath(p) ==> !SegmentIs(p[0], "management");
    h
  }

  /** The three management routes; any other management path is not routed. */
  function Management(s: State, req: Request, numberOf: string -> NumView): (h: Handled)
    ensures Disciplined(s, h) && h.events == []
  {
    var ctid := GetParamCI(req.query, req.body, "ClientTransactionID");
    var p := req.path;
    if |p| == 3 && SegmentIs(p[1], "v1") && SegmentIs(p[2], "description") then
      Reply(200, Ok(s, ServerDescription, ctid, numberOf), [])
    else if |p| == 3 && SegmentIs(p[1], "v1") && SegmentIs(p[2], "configureddevices") then
      Reply(200, Ok(s, ConfiguredDevices, ctid, numberOf), [])
    else if |p| == 2 && SegmentIs(p[1], "apiversions") then
      Reply(200, Ok(s, ApiVersions, ctid, numberOf), [])
    else Handled(s, Unrouted, [])
  }

  /** A device path: the gate first, then the device routes. */
  function Gated(s: State, req: Request, now: string, numberOf: string -> NumView): (h: Handled)
    requires IsDevicePath(req.path)
    ensures Disciplined(s, h)
    ensures DeviceGate(req.path[3]) == Pass && |req.path| == 5 ==> h == DeviceRoute(s, req, req.path[4], now, numberOf)
  {
    var ctid := GetParamCI(req.query, req.body, "ClientTransactionID");
    var p := req.path;
    match DeviceGate(p[3])
    case BadNumber => Reply(400, ErrBody(s, "Invalid device number", ctid, numberOf, Some(1027)), [])
    case Negative => Reply(400, ErrBody(s, "Negative device number", ctid, numberOf, Some(1028)), [])
    case NoDevice => Reply(404, ErrBody(s, "Device not found", ctid, numberOf, Some(1029)), [])
    case Pass => if |p| == 5 then DeviceRoute(s, req, p[4], now, numberOf) else Handled(s, Unrouted, [])
  }

  // ---------------------------------------------------------------------------
  // Properties
  // ---------------------------------------------------------------------------

  function ClientTx(req: Request, numberOf: string -> NumView): nat {
    ParseUIntOrZero(ToNumber(GetParamCI(req.query, req.body, "ClientTransactionID"), numberOf))
  }

  /** A device segment that is not all digits (for instance "-1" or "abc")
      is refused with 400/1027 before any handler runs; only the counter moves. */
  lemma MalformedDeviceNumber(s: State, req: Request, now: string, numberOf: string -> NumView)
    requires IsDevicePath(req.path) && !AllDigits(req.path[3])
    ensures var h := Handle(s, req, now, numberOf);
            && h.response == Json(400, Envelope(None, ClientTx(req, numberOf), s.serverTransactionId + 1, 1027, "Invalid device number"))
            && h.state == s.(serverTransactionId := s.serverTransactionId + 1)
            && h.events == []
  {
  }

  /** A digit string naming a device other than 0 is refused with 404/1029;
      leading zeros do not matter. */
  lemma UnknownDevice(s: State, req: Request, now: string, numberOf: string -> NumView)
    requires IsDevicePath(req.path) && req.path[3] != [] && AllDigits(req.path[3])
    ensures var h := Handle(s, req, now, numberOf);
            (exists i :: 0 <= i < |req.path[3]| && req.path[3][i] != '0') <==>
              && h.response == Json(404, Envelope(None, ClientTx(req, numberOf), s.serverTransactionId + 1, 1029, "Device not found"))
              && h.state == s.(serverTransactionId := s.serverTransactionId + 1)
  {
    var h := Handle(s, req, now, numberOf);
    var ctid := GetParamCI(req.query, req.body, "ClientTransactionID");
    var g := DeviceGate(req.path[3]);
    GatedDispatch(s, req, now, numberOf);
    if g == NoDevice {
      assert h == Reply(404, ErrBody(s, "Device not found", ctid, numberOf, Some(1029)), []);
    }
  }

  /** A device path never matches a management route, so the gate decides. */
  lemma GatedDispatch(s: State, req: Request, now: string, numberOf: string -> NumView)
    requires IsDevicePath(req.path)
    ensures var ctid := GetParamCI(req.query, req.body, "ClientTransactionID");
            Handle(s, req, now, numberOf) ==
              match DeviceGate(req.path[3])
              case BadNumber => Reply(400, ErrBody(s, "Invalid device number", ctid, numberOf, Some(1027)), [])
              case Negative => Reply(400, ErrBody(s, "Negative device number", ctid, numberOf, Some(1028)), [])
              case NoDevice => Reply(404, ErrBody(s, "Device not found", ctid, numberOf, Some(1029)), [])
              case Pass => if |req.path| == 5 then DeviceRoute(s, req, req.path[4], now, numberOf) else Handled(s, Unrouted, [])
  {
    assert !SegmentIs(req.path[0], "management");
  }

  predicate IsPutConnected(req: Request) {
    req.verb.Put? && |req.path| == 5 && IsDevicePath(req.path) && DeviceGate(req.path[3]) == Pass &&
    SegmentIs(req.path[4], "connected")
  }

  function ConnectedText(req: Request): Option<string> {
    var raw := GetParamCI(req.query, req.body, "Connected");
    if raw.None? then None else Some(AsciiLower(Trim(ToJsString(raw))))
  }

  /** `PUT connected`: a missing value is 400/1025 and an unknown one 400/1026,
      both leaving the flags alone; "true"/"1" and "false"/"0" (after trimming
      and ignoring case) set both `connected` and `clientConnected` and answer
      with a null `Value`. */
  lemma PutConnectedSemantics(s: State, req: Request, now: string, numberOf: string -> NumView)
    requires IsPutConnected(req)
    ensures var h := Handle(s, req, now, numberOf);
            var t := ConnectedText(req);
            && h.response.Json?
            && (t.None? ==> h.response.status == 400 && h.response.envelope.errorNumber == 1025 &&
                            h.state == s.(serverTransactionId := s.serverTransactionId + 1) && h.events == [])
            && (t.Some? && (IsTrueText(t.value) || IsFalseText(t.value)) ==>
                  && h.response.status == 200 && h.response.envelope.value == Some(JNull)
                  && h.response.envelope.errorNumber == 0
                  && h.state.connected == IsTrueText(t.value)
                  && h.state.clientConnected == h.state.connected
                  && h.state.lastClientSeen == Some(now)
                  && h.events == (if s.clientConnected == IsTrueText(t.value) then []
                                  else [ClientConnectionChanged(IsTrueText(t.value), "alpaca", now)]))
            && (t.Some? && !IsTrueText(t.value) && !IsFalseText(t.value) ==>
                  h.response.status == 400 && h.response.envelope.errorNumber == 1026 &&
                  h.state == s.(serverTransactionId := s.serverTransactionId + 1) && h.events == [])
  {
    PutConnectedRoute(s, req, now, numberOf);
    var t := ConnectedText(req);
    if t.Some? && (IsTrueText(t.value) || IsFalseText(t.value)) {
      AcceptedText(s, req, now, numberOf);
    } else {
      RefusedText(s, req, now, numberOf);
    }
  }

  /** A missing or unreadable value is refused before the state is touched. */
  lemma RefusedText(s: State, r: Request, now: string, numberOf: string -> NumView)
    requires ConnectedText(r).None? || (!IsTrueText(ConnectedText(r).value) && !IsFalseText(ConnectedText(r).value))
    ensures var h := PutConnected(s, r, now, numberOf);
            && h.response.Json? && h.response.status == 400
            && h.response.envelope.errorNumber == (if ConnectedText(r).None? then 1025 else 1026)
            && h.state == s.(serverTransactionId := s.serverTransactionId + 1)
            && h.events == []
  {
  }

  /** Any two accepted spellings of the same truth value (`TRUE`, ` true `,
      `1`, a JSON `true`...) are the same request as far as the state and the
      reply are concerned. */
  lemma ConnectedSpellingsAgree(s: State, r1: Request, r2: Request, now: string, numberOf: string -> NumView)
    requires IsPutConnected(r1) && IsPutConnected(r2)
    requires GetParamCI(r1.query, r1.body, "ClientTransactionID") == GetParamCI(r2.query, r2.body, "ClientTransactionID")
    requires ConnectedText(r1).Some? && ConnectedText(r2).Some?
    requires (IsTrueText(ConnectedText(r1).value) && IsTrueText(ConnectedText(r2).value)) ||
             (IsFalseText(ConnectedText(r1).value) && IsFalseText(ConnectedText(r2).value))
    ensures Handle(s, r1, now, numberOf) == Handle(s, r2, now, numberOf)
  {
    PutConnectedRoute(s, r1, now, numberOf);
    PutConnectedRoute(s, r2, now, numberOf);
    AcceptedText(s, r1, now, numberOf);
    AcceptedText(s, r2, now, numberOf);
  }

  /** An accepted spelling reaches `Accept` with its truth value. */
  lemma AcceptedText(s: State, r: Request, now: string, numberOf: string -> NumView)
    requires ConnectedText(r).Some? && (IsTrueText(ConnectedText(r).value) || IsFalseText(ConnectedText(r).value))
    ensures PutConnected(s, r, now, numberOf) ==
              Accept(s, IsTrueText(ConnectedText(r).value), GetParamCI(r.query, r.body, "ClientTransactionID"), now, numberOf)
  {
  }

  /** A `PUT connected` request reaches the `PutConnected` handler. */
  lemma PutConnectedRoute(s: State, r: Request, now: string, numberOf: string -> NumView)
    requires IsPutConnected(r)
    ensures Handle(s, r, now, numberOf) == PutConnected(s, r, now, numberOf)
  {
  }

  /** `GET issafe` connects the device, records a poll from "alpaca-poll",
      answers with the current safety flag and never changes it. */
  lemma IsSafeSemantics(s: State, req: Request, now: string, numberOf: string -> NumView)
    requires Reads(req.verb) && |req.path| == 5 && IsDevicePath(req.path)
    requires DeviceGate(req.path[3]) == Pass && SegmentIs(req.path[4], "issafe")
    ensures var h := Handle(s, req, now, numberOf);
            && h.response == Json(200, Envelope(Some(JBool(s.isSafe)), ClientTx(req, numberOf), s.serverTransactionId + 1, 0, ""))
            && h.state.connected && h.state.clientConnected && h.state.isSafe == s.isSafe
            && h.state.lastClientSeen == Some(now)
            && h.events == (if s.clientConnected then [] else [ClientConnectionChanged(true, "alpaca-poll", now)])
  {
  }

  /** `GET connected` (and HEAD) answers the `connected` flag with error 0
      and only spends a transaction id. */
  lemma ConnectedRead(s: State, req: Request, now: string, numberOf: string -> NumView)
    requires Reads(req.verb) && |req.path| == 5 && IsDevicePath(req.path)
    requires DeviceGate(req.path[3]) == Pass && SegmentIs(req.path[4], "connected")
    ensures var h := Handle(s, req, now, numberOf);
            && h.response == Json(200, Envelope(Some(JBool(s.connected)), ClientTx(req, numberOf), s.serverTransactionId + 1, 0, ""))
            && h.state == s.(serverTransactionId := s.serverTransactionId + 1)
            && h.events == []
  {
    ConnectedReadRoute(s, req, req.path[4], now, numberOf);
  }

  /** A read of `connected` is answered by the first branch of the device routes. */
  lemma ConnectedReadRoute(s: State, req: Request, member: string, now: string, numberOf: string -> NumView)
    requires Reads(req.verb) && SegmentIs(member, "connected")
    ensures DeviceRoute(s, req, member, now, numberOf) ==
              Reply(200, Ok(s, JBool(s.connected), GetParamCI(req.query, req.body, "ClientTransactionID"), numberOf), [])
  {
  }

  /** The constant endpoints answer fixed values and only spend a
      transaction id; the device list names exactly one device, number 0. */
  lemma ConstantEndpoints(s: State, req: Request, now: string, numberOf: string -> NumView)
    requires Reads(req.verb) && |req.path| == 5 && IsDevicePath(req.path) && DeviceGate(req.path[3]) == Pass
    requires ConstantProperty(AsciiLower(req.path[4])).Some?
    ensures var h := Handle(s, req, now, numberOf);
            && h.response == Json(200, Envelope(ConstantProperty(AsciiLower(req.path[4])), ClientTx(req, numberOf), s.serverTransactionId + 1, 0, ""))
            && h.state == s.(serverTransactionId := s.serverTransactionId + 1)
            && h.events == []
    ensures |ConfiguredDevices.items| == 1 && Lookup(ConfiguredDevices.items[0].props, "DeviceNumber") == Some(JNum(0))
  {
    ConstantRoute(s, req, req.path[4], now, numberOf);
  }

  /** A constant property is answered by the constant branch of the device routes. */
  lemma ConstantRoute(s: State, req: Request, member: string, now: string, numberOf: string -> NumView)
    requires Reads(req.verb) && ConstantProperty(AsciiLower(member)).Some?
    ensures DeviceRoute(s, req, member, now, numberOf) ==
              Reply(200, Ok(s, ConstantProperty(AsciiLower(member)).value,
                            GetParamCI(req.query, req.body, "ClientTransactionID"), numberOf), [])
  {
    var m := AsciiLower(member);
    assert m != "connected" && m != "issafe";
  }

  /** The management endpoints answer fixed values (the server description,
      the one configured device, API version 1) and only spend a transaction
      id. */
  lemma ManagementEndpoints(s: State, req: Request, now: string, numberOf: string -> NumView)
    requires Reads(req.verb) && |req.path| >= 2 && SegmentIs(req.path[0], "management")
    ensures var h := Handle(s, req, now, numberOf);
            var v := if |req.path| == 3 && SegmentIs(req.path[1], "v1") && SegmentIs(req.path[2], "description") then Some(ServerDescription)
                     else if |req.path| == 3 && SegmentIs(req.path[1], "v1") && SegmentIs(req.path[2], "configureddevices") then Some(ConfiguredDevices)
                     else if |req.path| == 2 && SegmentIs(req.path[1], "apiversions") then Some(ApiVersions)
                     else None;
            && (v.Some? ==> h.response == Json(200, Envelope(v, ClientTx(req, numberOf), s.serverTransactionId + 1, 0, "")) &&
                            h.state == s.(serverTransactionId := s.serverTransactionId + 1) && h.events == [])
            && (v.None? ==> h == Handled(s, Unrouted, []))
  {
    ManagementRoute(s, req, now, numberOf);
  }

  /** A read under `management` reaches the management routes. */
  lemma ManagementRoute(s: State, req: Request, now: string, numberOf: string -> NumView)
    requires Reads(req.verb) && |req.path| >= 2 && SegmentIs(req.path[0], "management")
    ensures Handle(s, req, now, numberOf) == Management(s, req, numberOf)
  {
  }

  // ---------------------------------------------------------------------------
  // Runs
  // ---------------------------------------------------------------------------

  /** The envelopes produced by serving `reqs` in order, and the final state. */
  function Serve(s: State, reqs: seq<Request>, now: string, numberOf: string -> NumView): (State, seq<Envelope>)
    decreases |reqs|
  {
    if reqs == [] then (s, [])
    else
      var h := Handle(s, reqs[0], now, numberOf);
      var (s', envs) := Serve(h.state, reqs[1..], now, numberOf);
      (s', if h.response.Json? then [h.response.envelope] + envs else envs)
  }

  /** Across any sequence of requests, the envelopes carry consecutive server
      transaction ids following the starting counter; from a fresh state the
      k-th envelope carries id k. */
  lemma {:induction false} TransactionIdsAreConsecutive(s: State, reqs: seq<Request>, now: string, numberOf: string -> NumView)
    ensures var (s', envs) := Serve(s, reqs, now, numberOf);
            && s'.serverTransactionId == s.serverTransactionId + |envs|
            && forall i :: 0 <= i < |envs| ==> envs[i].serverTransactionId == s.serverTransactionId + i + 1
    decreases |reqs|
  {
    if reqs != [] {
      var h := Handle(s, reqs[0], now, numberOf);
      TransactionIdsAreConsecutive(h.state, reqs[1..], now, numberOf);
    }
  }

  lemma FreshStateNumbering(defaultSafe: Option<JsValue>, reqs: seq<Request>, now: string, numberOf: string -> NumView)
    ensures var (_, envs) := Serve(Init(defaultSafe), reqs, now, numberOf);
            forall i :: 0 <= i < |envs| ==> envs[i].serverTransactionId == i + 1
  {
    TransactionIdsAreConsecutive(Init(defaultSafe), reqs, now, numberOf);
  }
}

=== FILE: config.dfy ===
/** The persisted configuration (server/config.cjs): the default tree, the
    recursive merge of a loaded or submitted tree over it, and the
    normalisation `saveConfig` applies. Reading and writing the YAML file are
    foreign I/O; their outcome is an input. */
module Config {
  import opened Wrappers
  import opened JsValues

  // ---------------------------------------------------------------------------
  // Defaults
  // ---------------------------------------------------------------------------

  const ServerDefaults: seq<Prop> := [("httpPort", JNum(11111)), ("discoveryPort", JNum(32227))]

  const MqttDefaults: seq<Prop> :=
    [("enabled", JBool(false)), ("autoConnect", JBool(true)), ("host", JStr("localhost")),
     ("port", JNum(1883)), ("username", JStr("")), ("password", JStr("")),
     ("baseTopic", JStr("alpaca/safetymonitor")), ("clientId", JStr("alpaca-safety-monitor"))]

  const LoggingDefaults: seq<Prop> := [("level", JStr("info")), ("maxLogEntries", JNum(1000))]

  /** `DEFAULT_CONFIG` */
  const DefaultConfig: seq<Prop> :=
    [("server", JObj(ServerDefaults)), ("mqtt", JObj(MqttDefaults)), ("logging", JObj(LoggingDefaults))]

  // ---------------------------------------------------------------------------
  // Well-formed objects
  // ---------------------------------------------------------------------------

  /** No two properties share a name, as in every JavaScript object. */
  predicate UniqueKeys(ps: seq<Prop>) {
    forall i, j :: 0 <= i < j < |ps| ==> ps[i].0 != ps[j].0
  }

  /** Unique names in this object and in every object nested as a property value. */
  predicate DeepUnique(ps: seq<Prop>)
    decreases JObj(ps)
  {
    UniqueKeys(ps) && forall i :: 0 <= i < |ps| ==> (ps[i].1.JObj? ==> DeepUnique(ps[i].1.props))
  }

  // ---------------------------------------------------------------------------
  // mergeConfig
  // ---------------------------------------------------------------------------

  /** `overrides[key] || {}` */
  function Section(overrides: JsValue, key: string): JsValue {
    var sub := Get(overrides, key);
    if Truthy(sub) then sub.value else JObj([])
  }

  /** The merged value for the default `key: dv`: a plain-object default is
      merged recursively with the override's section; any other default
      (arrays included) yields to an own property of a truthy override, even
      a falsy one. */
  function Entry(key: string, dv: JsValue, overrides: JsValue): JsValue
    decreases dv, 2
  {
    if dv.JObj? then JObj(MergeObject(dv.props, Section(overrides, key)))
    else if Truthy(Some(overrides)) && HasOwn(overrides, key) then Get(overrides, key).value
    else dv
  }

  /** What the first loop assigns, one entry per default key, in order. */
  function Entries(defaults: seq<Prop>, overrides: JsValue): (r: seq<Prop>)
    ensures |r| == |defaults|
    ensures forall j :: 0 <= j < |defaults| ==> r[j].0 == defaults[j].0
    decreases JObj(defaults), 0
  {
    seq(|defaults|, j requires 0 <= j < |defaults| =>
                      (defaults[j].0, Entry(defaults[j].0, defaults[j].1, overrides)))
  }

  /** The name whose assignment `result[key] = value` reaches the prototype
      setter instead of creating an own property. */
  const ProtoKey: string := "__proto__"

  /** The method both loops call on an object; an own property of that name
      shadows it, and no JSON or YAML value is a function, so the call throws. */
  const HasOwnKey: string := "hasOwnProperty"

  /** The override properties the second loop copies as own properties: those
      whose name is neither a key of the defaults nor `__proto__`, in
      enumeration order. */
  function Extras(defaults: seq<Prop>, ps: seq<Prop>): (r: seq<Prop>)
    ensures forall i :: 0 <= i < |r| ==> !HasKey(defaults, r[i].0) && r[i].0 != ProtoKey
  {
    if ps == [] then []
    else (if HasKey(defaults, ps[0].0) || ps[0].0 == ProtoKey then [] else [ps[0]]) + Extras(defaults, ps[1..])
  }

  /** The object `mergeConfig` builds when no step throws: the entries and
      then the extras are assigned, in order, into a fresh object. */
  function MergeObject(defaults: seq<Prop>, overrides: JsValue): seq<Prop>
    decreases JObj(defaults), 1
  {
    Spread([], Entries(defaults, overrides) + Extras(defaults, Props(overrides)))
  }

  /** One iteration of the first loop for the default `key: dv`, or the
      exception it raises: `overrides[key]` on null or undefined before a
      nested merge, `overrides.hasOwnProperty(key)` on a truthy override that
      shadows the method, or an exception of the nested merge. */
  function EntryStep(key: string, dv: JsValue, overrides: JsValue): Result<JsValue, string>
    decreases dv, 2
  {
    if dv.JObj? then
      if overrides.JNull? then Failure("TypeError")
      else
        match MergeStep(dv.props, Section(overrides, key))
        case Success(ps) => Success(JObj(ps))
        case Failure(e) => Failure(e)
    else if Truthy(Some(overrides)) && HasOwn(overrides, HasOwnKey) then Failure("TypeError")
    else Success(Entry(key, dv, overrides))
  }

  /** Each default key's iteration of the first loop, in order. */
  function Steps(defaults: seq<Prop>, overrides: JsValue): (r: seq<Result<JsValue, string>>)
    ensures |r| == |defaults|
    decreases JObj(defaults), 0
  {
    seq(|defaults|, j requires 0 <= j < |defaults| => EntryStep(defaults[j].0, defaults[j].1, overrides))
  }

  /** The first loop over the first `n` default keys, stopping at the first
      exception. */
  function FirstLoop(defaults: seq<Prop>, steps: seq<Result<JsValue, string>>, n: nat): Result<seq<Prop>, string>
    requires n <= |defaults| && n <= |steps|
  {
    if n == 0 then Success([])
    else Extend(FirstLoop(defaults, steps, n - 1), defaults[n - 1].0, steps[n - 1])
  }

  /** One more iteration after `prev`: an earlier exception stands, otherwise
      the step's exception or its assignment. */
  function Extend(prev: Result<seq<Prop>, string>, key: string, step: Result<JsValue, string>): Result<seq<Prop>, string> {
    match prev
    case Failure(e) => Failure(e)
    case Success(es) =>
      match step
      case Failure(e) => Failure(e)
      case Success(v) => Success(es + [(key, v)])
  }

  /** `mergeConfig(defaults, overrides)` step by step, with JNull standing for
      both null and undefined: the first loop; then the second loop, whose
      `defaults.hasOwnProperty(key)` throws on the first override property
      when the defaults shadow the method; then the assignments. */
  function MergeStep(defaults: seq<Prop>, overrides: JsValue): Result<seq<Prop>, string>
    decreases JObj(defaults), 1
  {
    match FirstLoop(defaults, Steps(defaults, overrides), |defaults|)
    case Failure(e) => Failure(e)
    case Success(es) =>
      if Props(overrides) != [] && HasKey(defaults, HasOwnKey) then Failure("TypeError")
      else Success(Spread([], es + Extras(defaults, Props(overrides))))
  }

  /** Whether some step of the merge raises, whatever the order of the steps:
      a default key whose own step raises, or a second loop that has a
      property to test against defaults shadowing `hasOwnProperty`. */
  predicate MergeThrows(defaults: seq<Prop>, overrides: JsValue)
    decreases JObj(defaults), 1
  {
    ThrowsWithin(defaults, overrides, |defaults|) || (Props(overrides) != [] && HasKey(defaults, HasOwnKey))
  }

  /** Some of the first `n` default keys has a step that raises. */
  predicate ThrowsWithin(defaults: seq<Prop>, overrides: JsValue, n: nat)
    requires n <= |defaults|
    decreases JObj(defaults), 0
  {
    exists j :: 0 <= j < n && EntryThrows(defaults[j].0, defaults[j].1, overrides)
  }

  /** Whether the step for the default `key: dv` raises: an object default
      when the override is null or undefined or its section's merge raises;
      a leaf default when a truthy override has an own `hasOwnProperty`. */
  predicate EntryThrows(key: string, dv: JsValue, overrides: JsValue)
    decreases dv, 2
  {
    if dv.JObj? then overrides.JNull? || MergeThrows(dv.props, Section(overrides, key))
    else Truthy(Some(overrides)) && HasOwn(overrides, HasOwnKey)
  }

  /** `mergeConfig(defaults, overrides)` on a possibly undefined override. */
  function MergeConfig(defaults: seq<Prop>, overrides: Option<JsValue>): (r: Result<seq<Prop>, string>)
    ensures r.Failure? <==> MergeThrows(defaults, overrides.GetOr(JNull))
    ensures r.Failure? ==> r.error == "TypeError"
    ensures r.Success? ==> r.value == MergeObject(defaults, overrides.GetOr(JNull))
    ensures (overrides.None? || overrides == Some(JNull)) && (exists j :: 0 <= j < |defaults| && defaults[j].1.JObj?) ==>
              r.Failure?
  {
    MergeOutcome(defaults, overrides.GetOr(JNull));
    NullOverrideThrows(defaults);
    MergeStep(defaults, overrides.GetOr(JNull))
  }

  // ---------------------------------------------------------------------------
  // Lemmas about the building blocks
  // ---------------------------------------------------------------------------

  lemma {:induction false} LookupLastConcat(a: seq<Prop>, b: seq<Prop>, k: string)
    ensures LookupLast(a + b, k) == if LookupLast(b, k).Some? then LookupLast(b, k) else LookupLast(a, k)
    decreases |b|
  {
    if b != [] {
      var ab := a + b;
      assert ab[..|ab| - 1] == a + b[..|b| - 1];
      assert ab[|ab| - 1] == b[|b| - 1];
      LookupLastConcat(a, b[..|b| - 1], k);
    } else {
      assert a + b == a;
    }
  }

  lemma {:induction false} LookupLastAbsent(ps: seq<Prop>, k: string)
    requires !HasKey(ps, k)
    ensures LookupLast(ps, k).None?
    decreases |ps|
  {
    if ps != [] {
      assert forall i :: 0 <= i < |ps| - 1 ==> ps[..|ps| - 1][i] == ps[i];
      LookupLastAbsent(ps[..|ps| - 1], k);
    }
  }

  /** In an object with unique keys the last property named `k` is the only one. */
  lemma {:induction false} LookupLastUnique(ps: seq<Prop>, j: nat)
    requires UniqueKeys(ps) && j < |ps|
    ensures LookupLast(ps, ps[j].0) == Some(ps[j].1)
    decreases |ps|
  {
    if j < |ps| - 1 {
      var init := ps[..|ps| - 1];
      assert init[j] == ps[j];
      LookupLastUnique(init, j);
    }
  }

  lemma {:induction false} LookupUnique(ps: seq<Prop>, j: nat)
    requires UniqueKeys(ps) && j < |ps|
    ensures Lookup(ps, ps[j].0) == Some(ps[j].1)
  {
    var r := Lookup(ps, ps[j].0);
    var i :| 0 <= i < |ps| && ps[i] == (ps[j].0, r.value) && forall i' :: 0 <= i' < i ==> ps[i'].0 != ps[j].0;
    assert i == j;
  }

  lemma {:induction false} ExtrasLookup(defaults: seq<Prop>, ps: seq<Prop>, k: string)
    ensures LookupLast(Extras(defaults, ps), k) == if HasKey(defaults, k) || k == ProtoKey then None else LookupLast(ps, k)
    decreases |ps|
  {
    if ps != [] {
      var head := if HasKey(defaults, ps[0].0) || ps[0].0 == ProtoKey then [] else [ps[0]];
      ExtrasLookup(defaults, ps[1..], k);
      LookupLastConcat(head, Extras(defaults, ps[1..]), k);
      LookupLastConcat([ps[0]], ps[1..], k);
      assert [ps[0]] + ps[1..] == ps;
    } else if HasKey(defaults, k) || k == ProtoKey {
      assert LookupLast(Extras(defaults, ps), k).None?;
    }
  }

  lemma {:induction false} ExtrasOfOwnKeys(defaults: seq<Prop>, ps: seq<Prop>)
    requires forall i :: 0 <= i < |ps| ==> HasKey(defaults, ps[i].0)
    ensures Extras(defaults, ps) == []
    decreases |ps|
  {
    if ps != [] {
      ExtrasOfOwnKeys(defaults, ps[1..]);
    }
  }

  lemma {:induction false} AssignFresh(ps: seq<Prop>, k: string, v: JsValue)
    requires !HasKey(ps, k)
    ensures Assign(ps, k, v) == ps + [(k, v)]
    decreases |ps|
  {
    if ps != [] {
      assert forall i :: 0 <= i < |ps| - 1 ==> ps[1..][i] == ps[i + 1];
      AssignFresh(ps[1..], k, v);
      assert [ps[0]] + (ps[1..] + [(k, v)]) == ps + [(k, v)];
    }
  }

  /** Assigning properties with fresh, distinct names into an empty object
      lays them out in order. */
  lemma {:induction false} SpreadFresh(extra: seq<Prop>)
    requires UniqueKeys(extra)
    ensures Spread([], extra) == extra
    decreases |extra|
  {
    if extra != [] {
      var init := extra[..|extra| - 1];
      var last := extra[|extra| - 1];
      SpreadFresh(init);
      assert forall i :: 0 <= i < |init| ==> init[i] == extra[i];
      assert !HasKey(init, last.0);
      AssignFresh(init, last.0, last.1);
      assert init + [last] == extra;
    }
  }

  // ---------------------------------------------------------------------------
  // Where the merge throws
  // ---------------------------------------------------------------------------

  /** The step for one default key raises exactly when `EntryThrows` says
      so, and otherwise assigns the entry's value. */
  lemma {:induction false} EntryOutcome(key: string, dv: JsValue, overrides: JsValue)
    ensures EntryStep(key, dv, overrides) ==
            if EntryThrows(key, dv, overrides) then Failure("TypeError") else Success(Entry(key, dv, overrides))
    decreases dv, 2
  {
    if dv.JObj? && !overrides.JNull? {
      MergeOutcome(dv.props, Section(overrides, key));
    }
  }

  /** The first loop over `n` keys, when every step either raises a
      TypeError or assigns the entry `es` names, stops with a TypeError
      exactly when one of those `n` steps raises, and otherwise has assigned
      the first `n` entries in order. */
  lemma {:induction false} FirstLoopOutcome(defaults: seq<Prop>, steps: seq<Result<JsValue, string>>, es: seq<Prop>, n: nat)
    requires n <= |defaults| == |steps| == |es|
    requires forall i :: 0 <= i < |steps| && steps[i].Failure? ==> steps[i].error == "TypeError"
    requires forall i :: 0 <= i < |steps| && steps[i].Success? ==> es[i] == (defaults[i].0, steps[i].value)
    ensures FirstLoop(defaults, steps, n) ==
            if exists i :: 0 <= i < n && steps[i].Failure? then Failure("TypeError") else Success(es[..n])
  {
    if n > 0 {
      FirstLoopOutcome(defaults, steps, es, n - 1);
      if !(exists i :: 0 <= i < n && steps[i].Failure?) {
        assert es[..n] == es[..n - 1] + [es[n - 1]];
      }
    }
  }

  /** The step-by-step merge raises a TypeError exactly when some step
      raises, in whatever order the steps are taken, and otherwise builds
      the merged object. */
  lemma {:induction false} MergeOutcome(defaults: seq<Prop>, overrides: JsValue)
    ensures MergeStep(defaults, overrides) ==
            if MergeThrows(defaults, overrides) then Failure("TypeError") else Success(MergeObject(defaults, overrides))
    decreases JObj(defaults), 1
  {
    var steps := Steps(defaults, overrides);
    var es := Entries(defaults, overrides);
    forall i | 0 <= i < |defaults|
      ensures steps[i] == if EntryThrows(defaults[i].0, defaults[i].1, overrides) then Failure("TypeError")
                          else Success(Entry(defaults[i].0, defaults[i].1, overrides))
    {
      EntryOutcome(defaults[i].0, defaults[i].1, overrides);
    }
    FirstLoopOutcome(defaults, steps, es, |defaults|);
    assert es[..|defaults|] == es;
    assert (exists i :: 0 <= i < |defaults| && steps[i].Failure?) <==> ThrowsWithin(defaults, overrides, |defaults|);
  }

  /** A null or undefined override raises as soon as an object default is reached. */
  lemma NullOverrideThrows(defaults: seq<Prop>)
    ensures (exists j :: 0 <= j < |defaults| && defaults[j].1.JObj?) ==> MergeThrows(defaults, JNull)
  {
    if exists j :: 0 <= j < |defaults| && defaults[j].1.JObj? {
      var j :| 0 <= j < |defaults| && defaults[j].1.JObj?;
      assert EntryThrows(defaults[j].0, defaults[j].1, JNull);
    }
  }

  /** `overrides[key] || {}` is never falsy. */
  lemma SectionTruthy(overrides: JsValue, key: string)
    ensures Truthy(Some(Section(overrides, key)))
  {
  }

  /** A non-empty level of leaf defaults that does not shadow
      `hasOwnProperty` raises exactly when the (truthy) override does. */
  lemma LeafLevelThrows(defaults: seq<Prop>, overrides: JsValue)
    requires |defaults| > 0 && !HasKey(defaults, HasOwnKey) && Truthy(Some(overrides))
    requires forall j :: 0 <= j < |defaults| ==> !defaults[j].1.JObj?
    ensures MergeThrows(defaults, overrides) <==> HasOwn(overrides, HasOwnKey)
  {
    if HasOwn(overrides, HasOwnKey) {
      assert EntryThrows(defaults[0].0, defaults[0].1, overrides);
      assert ThrowsWithin(defaults, overrides, |defaults|);
    }
    if ThrowsWithin(defaults, overrides, |defaults|) {
      var j :| 0 <= j < |defaults| && EntryThrows(defaults[j].0, defaults[j].1, overrides);
      assert !defaults[j].1.JObj?;
    }
  }

  /** Merging with `DEFAULT_CONFIG` raises exactly when the override is null
      or undefined, or one of its `server`, `mqtt` and `logging` sections has
      an own `hasOwnProperty`. */
  lemma DefaultMergeThrows(config: Option<JsValue>)
    ensures var o := config.GetOr(JNull);
            MergeConfig(DefaultConfig, config).Failure? <==>
              o.JNull? || HasOwn(Section(o, "server"), HasOwnKey) || HasOwn(Section(o, "mqtt"), HasOwnKey) ||
              HasOwn(Section(o, "logging"), HasOwnKey)
  {
    var o := config.GetOr(JNull);
    DefaultLevels(o);
    if !o.JNull? {
      SectionThrows(o, "server", ServerDefaults);
      SectionThrows(o, "mqtt", MqttDefaults);
      SectionThrows(o, "logging", LoggingDefaults);
    } else {
      assert EntryThrows("server", JObj(ServerDefaults), o);
    }
  }

  /** `DEFAULT_CONFIG` has three object levels and no leaf, and does not
      shadow `hasOwnProperty`: it raises exactly when one of its sections does. */
  lemma DefaultLevels(o: JsValue)
    ensures MergeThrows(DefaultConfig, o) <==>
            EntryThrows("server", JObj(ServerDefaults), o) || EntryThrows("mqtt", JObj(MqttDefaults), o) ||
            EntryThrows("logging", JObj(LoggingDefaults), o)
  {
    TopLevelPlain();
    assert ThrowsWithin(DefaultConfig, o, 3) <==>
           EntryThrows(DefaultConfig[0].0, DefaultConfig[0].1, o) || EntryThrows(DefaultConfig[1].0, DefaultConfig[1].1, o) ||
           EntryThrows(DefaultConfig[2].0, DefaultConfig[2].1, o);
  }

  lemma TopLevelPlain()
    ensures !HasKey(DefaultConfig, HasOwnKey)
  {
  }

  /** A section of `DEFAULT_CONFIG` raises exactly when the override's section
      has an own `hasOwnProperty`. */
  lemma SectionThrows(o: JsValue, key: string, leaves: seq<Prop>)
    requires !o.JNull?
    requires leaves == ServerDefaults || leaves == MqttDefaults || leaves == LoggingDefaults
    ensures EntryThrows(key, JObj(leaves), o) <==> HasOwn(Section(o, key), HasOwnKey)
  {
    SectionTruthy(o, key);
    assert !HasKey(leaves, HasOwnKey);
    LeafLevelThrows(leaves, Section(o, key));
  }

  /** `saveConfig({mqtt: {hasOwnProperty: 1}})` throws inside the merge. */
  lemma ShadowedHasOwnPropertyThrows()
    ensures MergeConfig(DefaultConfig, Some(JObj([("mqtt", JObj([(HasOwnKey, JNum(1))]))]))).Failure?
  {
    var o := JObj([("mqtt", JObj([(HasOwnKey, JNum(1))]))]);
    DefaultMergeThrows(Some(o));
    assert Section(o, "mqtt") == JObj([(HasOwnKey, JNum(1))]);
    assert OwnProps(Section(o, "mqtt"))[0].0 == HasOwnKey;
  }

  // ---------------------------------------------------------------------------
  // Properties of mergeConfig
  // ---------------------------------------------------------------------------

  /** Where a name of the merged object gets its value: a default key from
      its entry, `__proto__` from nowhere, any other name from the last
      override property of that name; a name found in neither is absent. */
  lemma MergeLookup(defaults: seq<Prop>, overrides: JsValue, k: string)
    ensures Lookup(MergeObject(defaults, overrides), k) ==
            if HasKey(defaults, k) then LookupLast(Entries(defaults, overrides), k)
            else if k == ProtoKey then None
            else LookupLast(Props(overrides), k)
  {
    var es := Entries(defaults, overrides);
    var xs := Extras(defaults, Props(overrides));
    SpreadLookup([], es + xs, k);
    LookupLastConcat(es, xs, k);
    ExtrasLookup(defaults, Props(overrides), k);
    if !HasKey(defaults, k) {
      assert !HasKey(es, k);
      LookupLastAbsent(es, k);
    } else {
      var i :| 0 <= i < |defaults| && defaults[i].0 == k;
      assert es[i].0 == k;
      assert LookupLast(es, k).Some? by {
        if LookupLast(es, k).None? {
          LookupLastSome(es, i);
        }
      }
    }
  }

  lemma {:induction false} LookupLastSome(ps: seq<Prop>, i: nat)
    requires i < |ps|
    ensures LookupLast(ps, ps[i].0).Some?
    decreases |ps|
  {
    if i < |ps| - 1 && ps[|ps| - 1].0 != ps[i].0 {
      var init := ps[..|ps| - 1];
      assert init[i] == ps[i];
      LookupLastSome(init, i);
    }
  }

  /** Every key of the defaults is present in the merge result. */
  lemma DefaultKeysKept(defaults: seq<Prop>, overrides: JsValue, k: string)
    requires HasKey(defaults, k)
    ensures HasKey(MergeObject(defaults, overrides), k)
  {
    MergeLookup(defaults, overrides, k);
    var i :| 0 <= i < |defaults| && defaults[i].0 == k;
    LookupLastSome(Entries(defaults, overrides), i);
  }

  /** The per-key rules for an object whose keys are unique: a leaf default
      gives way to an own property of a truthy override whatever its value;
      an object default is merged with `overrides[key] || {}`. */
  lemma MergeRules(defaults: seq<Prop>, overrides: JsValue, j: nat)
    requires UniqueKeys(defaults) && j < |defaults|
    ensures var k := defaults[j].0;
            var dv := defaults[j].1;
            var got := Lookup(MergeObject(defaults, overrides), k);
            && (!dv.JObj? && Truthy(Some(overrides)) && HasOwn(overrides, k) ==> got == Get(overrides, k))
            && (!dv.JObj? && !(Truthy(Some(overrides)) && HasOwn(overrides, k)) ==> got == Some(dv))
            && (dv.JObj? ==> got == Some(JObj(MergeObject(dv.props, Section(overrides, k)))))
            && (dv.JObj? && !Truthy(Get(overrides, k)) ==> got == Some(JObj(MergeObject(dv.props, JObj([])))))
  {
    var k := defaults[j].0;
    var es := Entries(defaults, overrides);
    MergeLookup(defaults, overrides, k);
    assert HasKey(defaults, k);
    assert UniqueKeys(es) by {
      forall a, b | 0 <= a < b < |es| ensures es[a].0 != es[b].0 {
        assert es[a].0 == defaults[a].0 && es[b].0 == defaults[b].0;
      }
    }
    LookupLastUnique(es, j);
  }

  /** Override properties whose names are not default keys are copied as
      they are, except `__proto__`, which never becomes an own property. */
  lemma ExtrasCopied(defaults: seq<Prop>, overrides: JsValue, k: string)
    requires !HasKey(defaults, k)
    ensures k != ProtoKey ==> Lookup(MergeObject(defaults, overrides), k) == LookupLast(Props(overrides), k)
    ensures k == ProtoKey ==> Lookup(MergeObject(defaults, overrides), k).None?
  {
    MergeLookup(defaults, overrides, k);
  }

  /** Merging a well-formed defaults tree with `{}` reproduces it exactly. */
  lemma {:induction false} MergeWithEmpty(defaults: seq<Prop>)
    requires DeepUnique(defaults)
    ensures MergeObject(defaults, JObj([])) == defaults
    decreases JObj(defaults)
  {
    var es := Entries(defaults, JObj([]));
    forall j | 0 <= j < |defaults| ensures es[j] == defaults[j] {
      var (k, dv) := defaults[j];
      assert es[j] == (k, Entry(k, dv, JObj([])));
      if dv.JObj? {
        assert Section(JObj([]), k) == JObj([]);
        assert DeepUnique(dv.props);
        MergeWithEmpty(dv.props);
        assert JObj(dv.props) == dv;
      } else {
        assert !HasOwn(JObj([]), k);
      }
    }
    assert es == defaults;
    assert Extras(defaults, Props(JObj([]))) == [];
    assert es + [] == es;
    SpreadFresh(defaults);
  }

  /** Merging a well-formed tree over itself reproduces it exactly. */
  lemma {:induction false} MergeWithSelf(defaults: seq<Prop>)
    requires DeepUnique(defaults)
    ensures MergeObject(defaults, JObj(defaults)) == defaults
    decreases JObj(defaults)
  {
    var es := Entries(defaults, JObj(defaults));
    forall j | 0 <= j < |defaults| ensures es[j] == defaults[j] {
      var (k, dv) := defaults[j];
      assert es[j] == (k, Entry(k, dv, JObj(defaults)));
      LookupUnique(defaults, j);
      assert Get(JObj(defaults), k) == Some(dv);
      if dv.JObj? {
        assert Section(JObj(defaults), k) == dv;
        assert DeepUnique(dv.props);
        MergeWithSelf(dv.props);
        assert JObj(dv.props) == dv;
      }
    }
    assert es == defaults;
    ExtrasOfOwnKeys(defaults, defaults);
    assert es + [] == es;
    SpreadFresh(defaults);
  }

  // ---------------------------------------------------------------------------
  // saveConfig / loadConfig / getConfig
  // ---------------------------------------------------------------------------

  /** The `autoConnect` rule: a merged tree whose `mqtt.enabled` is truthy
      gets `mqtt.autoConnect = true`; a tree without an `mqtt` object makes
      the property read throw. */
  function Normalise(cfg: seq<Prop>): Option<seq<Prop>> {
    match Lookup(cfg, "mqtt")
    case Some(JObj(mp)) =>
      if Truthy(Lookup(mp, "enabled")) then Some(Assign(cfg, "mqtt", JObj(Assign(mp, "autoConnect", JBool(true)))))
      else Some(cfg)
    case Some(JNull) => None
    case None => None
    case Some(_) => Some(cfg)
  }

  /** The module's `currentConfig` after a call, and what the call returns. */
  datatype Saved = Saved(current: Option<seq<Prop>>, ok: bool)

  /** `saveConfig(config)` with `current` the previous `currentConfig` and
      `writeOk` the outcome of writing the file. The merged, normalised tree
      becomes current before the write, so a failed write still replaces it;
      a throwing merge leaves it as it was. */
  function SaveConfig(current: Option<seq<Prop>>, config: Option<JsValue>, writeOk: bool): (r: Saved)
    ensures MergeConfig(DefaultConfig, config).Failure? ==> r == Saved(current, false)
    ensures r.ok ==> writeOk && r.current.Some?
  {
    match MergeConfig(DefaultConfig, config)
    case Failure(_) => Saved(current, false)
    case Success(merged) =>
      match Normalise(merged)
      case None => Saved(Some(merged), false)
      case Some(cfg) => Saved(Some(cfg), writeOk)
  }

  /** What `loadConfig` finds on disk: no file, a parsed document (YAML of an
      empty file is undefined), or a read or parse error. */
  datatype ConfigFile = Missing | Parsed(doc: Option<JsValue>) | Unreadable

  /** `loadConfig()`: the new `currentConfig`, which is also what it returns.
      A missing file is written from the defaults (`writeOk` is that write's
      outcome, which does not matter); a parsed document is merged without
      the `autoConnect` rule; any exception falls back to the defaults. */
  function LoadConfig(current: Option<seq<Prop>>, file: ConfigFile, writeOk: bool): (r: seq<Prop>)
  {
    match file
    case Missing => SaveConfig(Some(DefaultConfig), Some(JObj(DefaultConfig)), writeOk).current.GetOr(DefaultConfig)
    case Unreadable => DefaultConfig
    case Parsed(doc) =>
      match MergeConfig(DefaultConfig, doc)
      case Success(cfg) => cfg
      case Failure(_) => DefaultConfig
  }

  /** `getConfig()`: the cached tree, or a fresh load. */
  function GetConfig(current: Option<seq<Prop>>, file: ConfigFile, writeOk: bool): (r: seq<Prop>)
    ensures current.Some? ==> r == current.value
  {
    if current.Some? then current.value else LoadConfig(current, file, writeOk)
  }

  // ---------------------------------------------------------------------------
  // Properties of the configuration lifecycle
  // ---------------------------------------------------------------------------

  lemma DefaultsWellFormed()
    ensures DeepUnique(DefaultConfig)
    ensures Lookup(DefaultConfig, "mqtt") == Some(JObj(MqttDefaults))
  {
    MqttKeysUnique();
    assert DeepUnique(MqttDefaults);
    assert DeepUnique(ServerDefaults);
    assert DeepUnique(LoggingDefaults);
  }

  lemma MqttKeysUnique()
    ensures UniqueKeys(MqttDefaults)
  {
  }

  /** The documented defaults: MQTT off, `autoConnect` on, broker port 1883,
      base topic "alpaca/safetymonitor", HTTP port 11111. */
  lemma DefaultsAsDocumented()
    ensures Lookup(MqttDefaults, "enabled") == Some(JBool(false))
    ensures Lookup(MqttDefaults, "autoConnect") == Some(JBool(true))
    ensures Lookup(MqttDefaults, "port") == Some(JNum(1883))
    ensures Lookup(MqttDefaults, "baseTopic") == Some(JStr("alpaca/safetymonitor"))
    ensures Lookup(ServerDefaults, "httpPort") == Some(JNum(11111))
    ensures Lookup(DefaultConfig, "server") == Some(JObj(ServerDefaults))
  {
    MqttKeysUnique();
    LookupUnique(MqttDefaults, 0);
    LookupUnique(MqttDefaults, 1);
    LookupUnique(MqttDefaults, 3);
    LookupUnique(MqttDefaults, 6);
  }

  /** The `autoConnect` rule on any tree with an `mqtt` object: the section
      gains `autoConnect: true` exactly when its `enabled` is truthy, and no
      other value, in the section or outside it, changes. */
  lemma NormaliseRule(cfg: seq<Prop>, mp: seq<Prop>, k: string, mk: string)
    requires Lookup(cfg, "mqtt") == Some(JObj(mp))
    ensures Normalise(cfg).Some?
    ensures !Truthy(Lookup(mp, "enabled")) ==> Normalise(cfg) == Some(cfg)
    ensures Truthy(Lookup(mp, "enabled")) ==>
              var out := Normalise(cfg).value;
              var sp := Assign(mp, "autoConnect", JBool(true));
              && Lookup(out, "mqtt") == Some(JObj(sp))
              && Lookup(sp, "autoConnect") == Some(JBool(true))
              && (mk != "autoConnect" ==> Lookup(sp, mk) == Lookup(mp, mk))
              && (k != "mqtt" ==> Lookup(out, k) == Lookup(cfg, k))
  {
    var sp := Assign(mp, "autoConnect", JBool(true));
    assert Normalise(cfg) == if Truthy(Lookup(mp, "enabled")) then Some(Assign(cfg, "mqtt", JObj(sp))) else Some(cfg);
    if !Truthy(Lookup(mp, "enabled")) {
      return;
    }
    AssignLookup(cfg, "mqtt", JObj(sp), k);
    AssignLookup(cfg, "mqtt", JObj(sp), "mqtt");
    AssignLookup(mp, "autoConnect", JBool(true), "autoConnect");
    AssignLookup(mp, "autoConnect", JBool(true), mk);
  }

  /** Whatever is saved, the merge yields an `mqtt` object: the merge of the
      MQTT defaults with the submitted section. */
  lemma MergedMqttSection(config: JsValue)
    ensures Lookup(MergeObject(DefaultConfig, config), "mqtt") ==
            Some(JObj(MergeObject(MqttDefaults, Section(config, "mqtt"))))
  {
    DefaultsWellFormed();
    MergeRules(DefaultConfig, config, 1);
  }

  /** Without a file the defaults are loaded unchanged (MQTT is disabled in
      them, so the `autoConnect` rule does not fire). */
  lemma MissingFileLoadsDefaults(current: Option<seq<Prop>>, writeOk: bool)
    ensures LoadConfig(current, Missing, writeOk) == DefaultConfig
  {
    MergeDefaultsWithSelf();
    NormaliseDefaults();
  }

  lemma MergeDefaultsWithSelf()
    ensures MergeConfig(DefaultConfig, Some(JObj(DefaultConfig))) == Success(DefaultConfig)
  {
    DefaultsWellFormed();
    DefaultsMergeCleanly();
    MergeWithSelf(DefaultConfig);
  }

  /** The defaults merged over themselves raise nothing: no section shadows
      `hasOwnProperty`. */
  lemma DefaultsMergeCleanly()
    ensures !MergeThrows(DefaultConfig, JObj(DefaultConfig))
  {
    var o := JObj(DefaultConfig);
    DefaultMergeThrows(Some(o));
    DefaultSections();
    SectionsPlain();
  }

  lemma DefaultSections()
    ensures Section(JObj(DefaultConfig), "server") == JObj(ServerDefaults)
    ensures Section(JObj(DefaultConfig), "mqtt") == JObj(MqttDefaults)
    ensures Section(JObj(DefaultConfig), "logging") == JObj(LoggingDefaults)
  {
    DefaultsWellFormed();
    LookupUnique(DefaultConfig, 1);
    LookupUnique(DefaultConfig, 2);
  }

  lemma SectionsPlain()
    ensures !HasOwn(JObj(ServerDefaults), HasOwnKey)
    ensures !HasOwn(JObj(MqttDefaults), HasOwnKey)
    ensures !HasOwn(JObj(LoggingDefaults), HasOwnKey)
  {
    assert OwnProps(JObj(MqttDefaults)) == MqttDefaults;
  }

  lemma NormaliseDefaults()
    ensures Normalise(DefaultConfig) == Some(DefaultConfig)
  {
    DefaultsWellFormed();
    DefaultsAsDocumented();
    NormaliseRule(DefaultConfig, MqttDefaults, "", "");
  }

  /** An empty or null document is not an object: the merge throws and the
      defaults are used instead. */
  lemma EmptyDocumentLoadsDefaults(current: Option<seq<Prop>>, doc: Option<JsValue>, writeOk: bool)
    requires doc.None? || doc == Some(JNull)
    ensures LoadConfig(current, Parsed(doc), writeOk) == DefaultConfig
  {
    assert DefaultConfig[1].1.JObj?;
  }

  /** A parsed document is merged over the defaults without the
      `autoConnect` rule; a document whose merge throws (a null section, a
      section shadowing `hasOwnProperty`) falls back to the defaults. */
  lemma ParsedDocumentLoads(current: Option<seq<Prop>>, doc: Option<JsValue>, writeOk: bool)
    ensures MergeThrows(DefaultConfig, doc.GetOr(JNull)) ==> LoadConfig(current, Parsed(doc), writeOk) == DefaultConfig
    ensures !MergeThrows(DefaultConfig, doc.GetOr(JNull)) ==>
              LoadConfig(current, Parsed(doc), writeOk) == MergeObject(DefaultConfig, doc.GetOr(JNull))
  {
  }

  /** A save succeeds exactly when the merge does not throw and the write
      succeeds; a throwing merge keeps the previous tree. In the tree kept
      after a merge that does not throw, an enabled MQTT section has
      `autoConnect` true, and every other value, in the section and outside
      it, is the merged one. */
  lemma SaveForcesAutoConnect(current: Option<seq<Prop>>, config: JsValue, writeOk: bool, k: string, mk: string)
    ensures var saved := SaveConfig(current, Some(config), writeOk);
            && saved.ok == (writeOk && !MergeThrows(DefaultConfig, config))
            && (MergeThrows(DefaultConfig, config) ==> saved == Saved(current, false))
    ensures var merged := MergeObject(DefaultConfig, config);
            var mp := MergeObject(MqttDefaults, Section(config, "mqtt"));
            var saved := SaveConfig(current, Some(config), writeOk);
            && Lookup(merged, "mqtt") == Some(JObj(mp))
            && (!MergeThrows(DefaultConfig, config) ==> saved.current.Some?)
            && (!MergeThrows(DefaultConfig, config) && !Truthy(Lookup(mp, "enabled")) ==> saved.current.value == merged)
            && (!MergeThrows(DefaultConfig, config) && Truthy(Lookup(mp, "enabled")) ==>
                  var sp := Assign(mp, "autoConnect", JBool(true));
                  && Lookup(saved.current.value, "mqtt") == Some(JObj(sp))
                  && Lookup(sp, "autoConnect") == Some(JBool(true))
                  && (mk != "autoConnect" ==> Lookup(sp, mk) == Lookup(mp, mk))
                  && (k != "mqtt" ==> Lookup(saved.current.value, k) == Lookup(merged, k)))
  {
    var merged := MergeObject(DefaultConfig, config);
    var mp := MergeObject(MqttDefaults, Section(config, "mqtt"));
    MergedMqttSection(config);
    NormaliseRule(merged, mp, k, mk);
  }
}

=== FILE: device_state.dfy ===
/** The single device state of the SafetyMonitor (server/state.cjs): the
    Alpaca `Connected` flag, the safety flag, client tracking, the server
    transaction counter, and the envelope builders every Alpaca response goes
    through. Mutators return the new state together with the events the
    JavaScript object would emit, in emission order. */
module DeviceState {
  import opened Wrappers
  import opened JsValues

  const Version: string := "0.5.0"

  datatype State = State(
    connected: bool,
    isSafe: bool,
    serverTransactionId: nat,
    health: JsValue,
    lastChangeTs: Option<string>,
    lastReason: Option<string>,
    clientConnected: bool,
    lastClientSeen: Option<string>)

  datatype StateEvent =
    | SafeChanged(isSafe: bool, reason: string, at: string)
    | ClientConnectionChanged(connected: bool, source: string, at: string)
    | HealthChanged(health: JsValue)

  /** A mutator's outcome: the new state and the events emitted on the way. */
  datatype Mutation = Mutation(state: State, events: seq<StateEvent>)

  /** `new State({ defaultSafe })`: safe unless `defaultSafe` is given and falsy
      (`??` falls back to `true` for both undefined and null). */
  function Init(defaultSafe: Option<JsValue>): (s: State)
    ensures !s.connected && !s.clientConnected && s.serverTransactionId == 0
    ensures s.isSafe <==> defaultSafe.None? || defaultSafe == Some(JNull) || Truthy(defaultSafe)
    ensures s.lastChangeTs.None? && s.lastReason.None? && s.lastClientSeen.None?
    ensures s.health == JStr("ok")
  {
    var safe := match defaultSafe { case None => true case Some(JNull) => true case Some(v) => Truthy(Some(v)) };
    State(false, safe, 0, JStr("ok"), None, None, false, None)
  }

  // ---------------------------------------------------------------------------
  // Alpaca helpers
  // ---------------------------------------------------------------------------

  /** `parseUIntOrZero`: NaN, the infinities and negative numbers give 0, any
      other number its integer part. */
  function ParseUIntOrZero(v: NumView): (r: nat)
    ensures v.Finite? && v.trunc >= 0 ==> r == v.trunc
    ensures !v.Finite? || v.trunc < 0 ==> r == 0
  {
    match v
    case Finite(t) => if t < 0 then 0 else t
    case _ => 0
  }

  /** `i` is the first position whose name lower-cases to `lkey`, the one
      `Array.prototype.find` settles on. */
  predicate FirstCI(ps: seq<Prop>, lkey: string, i: int) {
    0 <= i < |ps| && AsciiLower(ps[i].0) == lkey && forall j :: 0 <= j < i ==> AsciiLower(ps[j].0) != lkey
  }

  /** The first property whose lower-cased name is `lkey`; a match on the empty
      name yields nothing, as `k ? obj[k] : undefined` does. */
  function FindCI(ps: seq<Prop>, lkey: string): (r: Option<JsValue>)
    ensures r.Some? ==> exists i :: FirstCI(ps, lkey, i) && ps[i].1 == r.value
    ensures forall i :: FirstCI(ps, lkey, i) ==> r == (if ps[i].0 == "" then None else Some(ps[i].1))
    ensures (forall i :: 0 <= i < |ps| ==> AsciiLower(ps[i].0) != lkey) ==> r.None?
    ensures r.None? && lkey != "" ==> forall i :: 0 <= i < |ps| ==> AsciiLower(ps[i].0) != lkey
  {
    if ps == [] then None
    else if AsciiLower(ps[0].0) == lkey then
      assert FirstCI(ps, lkey, 0);
      assert forall i :: FirstCI(ps, lkey, i) ==> i == 0;
      if ps[0].0 == "" then None else Some(ps[0].1)
    else
      var r := FindCI(ps[1..], lkey);
      assert forall i :: 1 <= i < |ps| ==> ps[i] == ps[1..][i - 1];
      assert forall i :: 0 < i < |ps| ==> (FirstCI(ps, lkey, i) <==> FirstCI(ps[1..], lkey, i - 1));
      assert !FirstCI(ps, lkey, 0);
      r
  }

  /** The lookup inside `getParamCI`: nothing for a falsy holder, otherwise
      the first own key equal to `key` ignoring case. */
  function Find(holder: Option<JsValue>, key: string): Option<JsValue> {
    if !Truthy(holder) then None else FindCI(Props(holder.value), AsciiLower(key))
  }

  /** `getParamCI(req, key)`: the query wins; the body is consulted only when
      the query yields undefined or null. */
  function GetParamCI(query: seq<Prop>, body: Option<JsValue>, key: string): (r: Option<JsValue>)
    ensures var q := Find(Some(JObj(query)), key);
            (q.Some? && q != Some(JNull) ==> r == q) && (q.None? || q == Some(JNull) ==> r == Find(body, key))
  {
    match Find(Some(JObj(query)), key)
    case Some(JNull) => Find(body, key)
    case Some(v) => Some(v)
    case None => Find(body, key)
  }

  /** Lower-casing is idempotent. */
  lemma LowerIdempotent(s: string)
    ensures AsciiLower(AsciiLower(s)) == AsciiLower(s)
  {
    forall i | 0 <= i < |s| ensures LowerChar(LowerChar(s[i])) == LowerChar(s[i]) {
    }
  }

  /** `getParamCI` sees only the lower-cased key: any spelling of a name
      reads the same parameter. */
  lemma ParamCaseInsensitive(query: seq<Prop>, body: Option<JsValue>, key: string, key': string)
    requires AsciiLower(key) == AsciiLower(key')
    ensures GetParamCI(query, body, key) == GetParamCI(query, body, key')
    ensures GetParamCI(query, body, key) == GetParamCI(query, body, AsciiLower(key))
  {
    LowerIdempotent(key);
  }

  /** The first query property matching the key ignoring case decides, even
      when a later property also matches: `?ClientTransactionID=1&clienttransactionid=2`
      reads 1. The body is consulted only when that first match is null or
      no query name matches. */
  lemma QueryFirstMatch(query: seq<Prop>, body: Option<JsValue>, key: string, i: int)
    requires FirstCI(query, AsciiLower(key), i) && query[i].0 != ""
    ensures query[i].1 != JNull ==> GetParamCI(query, body, key) == Some(query[i].1)
    ensures query[i].1 == JNull ==> GetParamCI(query, body, key) == Find(body, key)
  {
  }

  /** The JSON envelope of an Alpaca response. A success envelope carries a
      `Value`; an error envelope has no `Value` key. */
  datatype Envelope = Envelope(
    value: Option<JsValue>,
    clientTransactionId: nat,
    serverTransactionId: nat,
    errorNumber: int,
    errorMessage: string)

  datatype Built = Built(state: State, envelope: Envelope)

  /** `ok(value, clientTx)` */
  function Ok(s: State, value: JsValue, clientTx: Option<JsValue>, numberOf: string -> NumView): (b: Built)
    ensures b.state == s.(serverTransactionId := s.serverTransactionId + 1)
    ensures b.envelope.serverTransactionId == s.serverTransactionId + 1
    ensures b.envelope.value == Some(value)
    ensures b.envelope.errorNumber == 0 && b.envelope.errorMessage == ""
    ensures b.envelope.clientTransactionId == ParseUIntOrZero(ToNumber(clientTx, numberOf))
  {
    var id := s.serverTransactionId + 1;
    Built(s.(serverTransactionId := id),
          Envelope(Some(value), ParseUIntOrZero(ToNumber(clientTx, numberOf)), id, 0, ""))
  }

  /** `errBody(msg, clientTx, num = 1024)` */
  function ErrBody(s: State, msg: string, clientTx: Option<JsValue>, numberOf: string -> NumView, num: Option<int>): (b: Built)
    ensures b.state == s.(serverTransactionId := s.serverTransactionId + 1)
    ensures b.envelope.serverTransactionId == s.serverTransactionId + 1
    ensures b.envelope.value.None?
    ensures b.envelope.errorNumber == (if num.Some? then num.value else 1024)
    ensures b.envelope.errorMessage == msg
    ensures b.envelope.clientTransactionId == ParseUIntOrZero(ToNumber(clientTx, numberOf))
  {
    var id := s.serverTransactionId + 1;
    Built(s.(serverTransactionId := id),
          Envelope(None, ParseUIntOrZero(ToNumber(clientTx, numberOf)), id, num.GetOr(1024), msg))
  }

  // ---------------------------------------------------------------------------
  // Business state
  // ---------------------------------------------------------------------------

  /** `setConnected(v)`: coerces to a boolean; emits nothing. */
  function SetConnected(s: State, v: Option<JsValue>): (r: State)
    ensures r.connected == Truthy(v)
    ensures r.(connected := s.connected) == s
  {
    s.(connected := Truthy(v))
  }

  /** `setHealth(val)`: always stores and always emits. */
  function SetHealth(s: State, val: JsValue): (m: Mutation)
    ensures m.state == s.(health := val)
    ensures m.events == [HealthChanged(val)]
  {
    Mutation(s.(health := val), [HealthChanged(val)])
  }

  /** `setSafe(safe, reason = 'manual')` at time `now`. The change stamp, the
      reason and the `safeChanged` event happen exactly when the flag flips. */
  function SetSafe(s: State, safe: Option<JsValue>, reason: Option<string>, now: string): (m: Mutation)
    ensures m.state.isSafe == Truthy(safe)
    ensures m.events != [] <==> s.isSafe != Truthy(safe)
    ensures m.events != [] ==> m.events == [SafeChanged(Truthy(safe), reason.GetOr("manual"), now)]
    ensures m.events != [] ==> m.state.lastChangeTs == Some(now) && m.state.lastReason == Some(reason.GetOr("manual"))
    ensures m.events == [] ==> m.state == s
    ensures m.state.(isSafe := s.isSafe, lastChangeTs := s.lastChangeTs, lastReason := s.lastReason) == s
  {
    var v := Truthy(safe);
    if s.isSafe == v then Mutation(s, [])
    else
      var why := reason.GetOr("manual");
      Mutation(s.(isSafe := v, lastChangeTs := Some(now), lastReason := Some(why)), [SafeChanged(v, why, now)])
  }

  /** `setClientConnected(val, source = 'alpaca')` at time `now`: the sighting
      stamp always moves; the event fires exactly when the flag flips. */
  function SetClientConnected(s: State, val: Option<JsValue>, source: Option<string>, now: string): (m: Mutation)
    ensures m.state.clientConnected == Truthy(val)
    ensures m.state.lastClientSeen == Some(now)
    ensures m.events != [] <==> s.clientConnected != Truthy(val)
    ensures m.events != [] ==> m.events == [ClientConnectionChanged(Truthy(val), source.GetOr("alpaca"), now)]
    ensures m.state.(clientConnected := s.clientConnected, lastClientSeen := s.lastClientSeen) == s
  {
    var v := Truthy(val);
    var s' := s.(clientConnected := v, lastClientSeen := Some(now));
    if s.clientConnected == v then Mutation(s', [])
    else Mutation(s', [ClientConnectionChanged(v, source.GetOr("alpaca"), now)])
  }

  /** Setting the same safety value twice in a row: the second call is silent
      and changes nothing. */
  lemma SetSafeRepeatIsSilent(s: State, safe: Option<JsValue>, r1: Option<string>, r2: Option<string>, t1: string, t2: string)
    ensures var m1 := SetSafe(s, safe, r1, t1);
            var m2 := SetSafe(m1.state, safe, r2, t2);
            m2.events == [] && m2.state == m1.state
  {
  }

  /** How many times the flag changes when set to `vs` in turn, starting at `prev`. */
  function Flips(prev: bool, vs: seq<bool>): nat
    decreases |vs|
  {
    if vs == [] then 0
    else (if vs[0] != prev then 1 else 0) + Flips(vs[0], vs[1..])
  }

  /** `setSafe` applied to each value in turn (reason and time fixed). */
  function SetSafeAll(s: State, vs: seq<bool>, reason: Option<string>, now: string): Mutation
    decreases |vs|
  {
    if vs == [] then Mutation(s, [])
    else
      var m := SetSafe(s, Some(JBool(vs[0])), reason, now);
      var rest := SetSafeAll(m.state, vs[1..], reason, now);
      Mutation(rest.state, m.events + rest.events)
  }

  /** Over any sequence of `setSafe` calls, exactly one `safeChanged` event is
      emitted per real transition, each carrying the new value (so the
      values alternate, starting with the opposite of the initial flag), and
      the counter is never touched. */
  lemma {:induction false} SafeEventsMatchTransitions(s: State, vs: seq<bool>, reason: Option<string>, now: string)
    ensures var m := SetSafeAll(s, vs, reason, now);
            && |m.events| == Flips(s.isSafe, vs)
            && (forall i :: 0 <= i < |m.events| ==> m.events[i].SafeChanged?)
            && (forall i :: 0 <= i < |m.events| ==> m.events[i].isSafe == ((i % 2 == 0) != s.isSafe))
            && (vs != [] ==> m.state.isSafe == vs[|vs| - 1])
            && m.state.serverTransactionId == s.serverTransactionId
    decreases |vs|
  {
    if vs != [] {
      var m := SetSafe(s, Some(JBool(vs[0])), reason, now);
      SafeEventsMatchTransitions(m.state, vs[1..], reason, now);
      var rest := SetSafeAll(m.state, vs[1..], reason, now);
      if vs[0] != s.isSafe {
        assert |m.events| == 1 && m.events[0].isSafe == vs[0];
        forall i | 1 <= i < |m.events + rest.events|
          ensures (m.events + rest.events)[i] == rest.events[i - 1]
        {
        }
      }
      if |vs| > 1 {
        assert vs[1..][|vs[1..]| - 1] == vs[|vs| - 1];
      }
    }
  }
}

=== FILE: discovery.dfy ===
/** The Alpaca discovery responder (server/discovery.cjs): the `message`
    handler of the UDP socket. It keeps no state; a reply depends only on the
    datagram, its sender and the advertised HTTP port. */
module Discovery {
  import opened Wrappers
  import opened JsValues
  import opened Logger

  type Byte = b: int | 0 <= b < 256

  const DefaultDiscoveryPort: int := 32227
  const DefaultHost: string := "0.0.0.0"
  const Magic: string := "alpacadiscovery1"
  const Broadcast: string := "255.255.255.255"

  datatype BindTarget = BindTarget(port: int, host: string)

  /** The socket address `startDiscovery` binds, with its parameter defaults. */
  function BindAddress(discoveryPort: Option<int>, host: Option<string>): (b: BindTarget)
    ensures b.port == (if discoveryPort.Some? then discoveryPort.value else 32227)
    ensures b.host == (if host.Some? then host.value else "0.0.0.0")
  {
    BindTarget(discoveryPort.GetOr(DefaultDiscoveryPort), host.GetOr(DefaultHost))
  }

  /** `buf.toString('ascii')`: each byte with its high bit cleared. */
  function DecodeAscii(msg: seq<Byte>): (r: string)
    ensures |r| == |msg|
    ensures forall i :: 0 <= i < |msg| ==> r[i] as int == msg[i] % 128
  {
    seq(|msg|, i requires 0 <= i < |msg| => (msg[i] % 128) as char)
  }

  /** `Buffer.from(s, 'ascii')`: the low byte of each character. */
  function EncodeAscii(s: string): (r: seq<Byte>)
    ensures |r| == |s|
    ensures forall i :: 0 <= i < |s| ==> r[i] == s[i] as int % 256
  {
    seq(|s|, i requires 0 <= i < |s| => s[i] as int % 256)
  }

  predicate IsAscii(s: string) {
    forall i :: 0 <= i < |s| ==> s[i] as int < 128
  }

  /** Decoding undoes encoding on 7-bit text. */
  lemma AsciiRoundTrip(s: string)
    requires IsAscii(s)
    ensures DecodeAscii(EncodeAscii(s)) == s
  {
    var d := DecodeAscii(EncodeAscii(s));
    assert forall i :: 0 <= i < |s| ==> d[i] == s[i];
  }

  /** A datagram asks for discovery when its text, trimmed and lower-cased,
      is exactly "alpacadiscovery1". */
  predicate IsDiscoveryRequest(msg: seq<Byte>) {
    AsciiLower(Trim(DecodeAscii(msg))) == Magic
  }

  /** `JSON.stringify({ AlpacaPort: httpPort })` as bytes. */
  function Payload(httpPort: int): seq<Byte> {
    EncodeAscii(Json(JObj([("AlpacaPort", JNum(httpPort))])))
  }

  /** The payload is `{"AlpacaPort":N}` with no white space, and the port
      can be read back from it. */
  lemma PayloadCarriesPort(port: nat)
    ensures var text := "{\"AlpacaPort\":" + NatToDecimal(port) + "}";
            && IsAscii(text)
            && DecodeAscii(Payload(port)) == text
            && DecimalValue(text[14..|text| - 1]) == port
  {
    var digits := NatToDecimal(port);
    var text := "{\"AlpacaPort\":" + digits + "}";
    PayloadBytes(port);
    TextAscii(digits);
    AsciiRoundTrip(text);
    Middle("{\"AlpacaPort\":", digits, "}");
    DecimalRoundTrip(port);
  }

  lemma PayloadBytes(port: nat)
    ensures Payload(port) == EncodeAscii("{\"AlpacaPort\":" + NatToDecimal(port) + "}")
  {
    PayloadText(port);
  }

  lemma TextAscii(digits: string)
    requires AllDigits(digits)
    ensures IsAscii("{\"AlpacaPort\":" + digits + "}")
  {
    DigitsAscii(digits);
    AsciiConcat("{\"AlpacaPort\":", digits);
    AsciiConcat("{\"AlpacaPort\":" + digits, "}");
  }

  lemma Middle(a: string, d: string, b: string)
    ensures (a + d + b)[|a|..|a + d + b| - |b|] == d
  {
    assert forall i :: 0 <= i < |d| ==> (a + d + b)[|a| + i] == d[i];
  }

  lemma DigitsAscii(d: string)
    requires AllDigits(d)
    ensures IsAscii(d)
  {
  }

  lemma AsciiConcat(a: string, b: string)
    requires IsAscii(a) && IsAscii(b)
    ensures IsAscii(a + b)
  {
    assert forall i :: |a| <= i < |a + b| ==> (a + b)[i] == b[i - |a|];
  }

  lemma PayloadText(port: nat)
    ensures Json(JObj([("AlpacaPort", JNum(port))])) == "{\"AlpacaPort\":" + NatToDecimal(port) + "}"
  {
    var d := NatToDecimal(port);
    JsonSingleField("AlpacaPort", JNum(port));
    QuoteKey();
    assert Json(JNum(port)) == d;
    LiteralJoin(d);
  }

  // The facts about string literals below are kept as separate lemmas so
  // that each literal is evaluated in a proof of its own.

  lemma QuoteKey()
    ensures Quote("AlpacaPort") == "\"AlpacaPort\""
  {
    KeyPlain();
    QuotePlain("AlpacaPort");
    KeyLiteral();
  }

  lemma KeyPlain()
    ensures forall i :: 0 <= i < |"AlpacaPort"| ==> IsPlainJsonChar("AlpacaPort"[i])
  {
  }

  lemma KeyLiteral()
    ensures "\"" + "AlpacaPort" + "\"" == "\"AlpacaPort\""
  {
  }

  lemma LiteralJoin(d: string)
    ensures "{" + "\"AlpacaPort\"" + ":" + d + "}" == "{\"AlpacaPort\":" + d + "}"
  {
  }

  datatype Sender = Sender(address: string, port: int)

  /** One completed `udp.send(payload, port, address)`. */
  datatype Send = Send(payload: seq<Byte>, port: int, address: string)

  /** Which of the two synchronous `send` calls throws, if any. */
  datatype SendFault = NoFault | FirstThrows(message: string) | SecondThrows(message: string)

  datatype Reaction = Reaction(sends: seq<Send>, logs: seq<LogCall>)

  /** The `message` handler: a request is answered first to its sender and
      then to the broadcast address on the sender's port, with the same
      payload; a throwing send is logged and skips what follows; anything
      else is ignored without a trace. */
  function OnMessage(msg: seq<Byte>, sender: Sender, httpPort: int, fault: SendFault): (r: Reaction)
    ensures !IsDiscoveryRequest(msg) ==> r == Reaction([], [])
    ensures IsDiscoveryRequest(msg) && fault.NoFault? ==>
              r.sends == [Send(Payload(httpPort), sender.port, sender.address), Send(Payload(httpPort), sender.port, Broadcast)]
    ensures IsDiscoveryRequest(msg) && fault.SecondThrows? ==> r.sends == [Send(Payload(httpPort), sender.port, sender.address)]
    ensures IsDiscoveryRequest(msg) && fault.FirstThrows? ==> r.sends == []
    ensures IsDiscoveryRequest(msg) ==>
              && |r.logs| == (if fault.NoFault? then 1 else 2)
              && r.logs[0] == LogCall(Debug, "ASCOM Discovery request received",
                                      Some(JObj([("from", JStr(sender.address + ":" + IntToDecimal(sender.port))),
                                                 ("advertisedPort", JNum(httpPort))])))
              && (!fault.NoFault? ==> r.logs[1] == LogCall(Error, "Failed to send discovery response",
                                                            Some(JObj([("error", JStr(fault.message))]))))
  {
    if !IsDiscoveryRequest(msg) then Reaction([], [])
    else
      var payload := Payload(httpPort);
      var seen := LogCall(Debug, "ASCOM Discovery request received",
                          Some(JObj([("from", JStr(sender.address + ":" + IntToDecimal(sender.port))),
                                     ("advertisedPort", JNum(httpPort))])));
      var toSender := Send(payload, sender.port, sender.address);
      var toAll := Send(payload, sender.port, Broadcast);
      match fault
      case NoFault => Reaction([toSender, toAll], [seen])
      case FirstThrows(e) =>
        Reaction([], [seen, LogCall(Error, "Failed to send discovery response", Some(JObj([("error", JStr(e))])))])
      case SecondThrows(e) =>
        Reaction([toSender], [seen, LogCall(Error, "Failed to send discovery response", Some(JObj([("error", JStr(e))])))])
  }

  /** Clearing or setting the high bit of any byte never changes whether a
      datagram is a request. */
  lemma HighBitIgnored(msg: seq<Byte>, other: seq<Byte>)
    requires |msg| == |other|
    requires forall i :: 0 <= i < |msg| ==> msg[i] % 128 == other[i] % 128
    ensures IsDiscoveryRequest(msg) <==> IsDiscoveryRequest(other)
  {
    assert DecodeAscii(msg) == DecodeAscii(other);
  }

  /** Surrounding white space and letter case do not matter. */
  lemma PaddedMixedCaseIsRequest()
    ensures IsDiscoveryRequest(EncodeAscii(" AlpacaDiscovery1\n"))
  {
    var core := "AlpacaDiscovery1";
    var good := " " + core + "\n";
    assert good == " AlpacaDiscovery1\n";
    assert IsAscii(good) by {
      assert forall i :: 0 <= i < |core| ==> core[i] as int < 128;
    }
    AsciiRoundTrip(good);
    TrimExact(" ", core, "\n");
    MagicLower();
  }

  lemma MagicLower()
    ensures AsciiLower("AlpacaDiscovery1") == Magic
  {
  }

  /** Text of any other length gets no reply. */
  lemma OtherTextIgnored()
    ensures !IsDiscoveryRequest(EncodeAscii("notadiscovery"))
  {
    var bad := "notadiscovery";
    assert |DecodeAscii(EncodeAscii(bad))| == 13;
    assert |Trim(DecodeAscii(EncodeAscii(bad)))| <= 13;
  }
}

=== FILE: js_values.dfy ===
/** JavaScript values as the server sees them: request parameters, JSON bodies,
    parsed YAML configuration trees and log metadata. The module also holds the
    JavaScript coercions the server relies on (truthiness, `String()`,
    `JSON.stringify`, property access, `trim`, `toLowerCase`, `Number()`). */
module JsValues {
  import opened Wrappers

  /** A JSON-compatible JavaScript value. Numbers are integers; objects keep
      their own enumerable properties in enumeration order. `undefined` is not
      a value here: a possibly-undefined value is an `Option<JsValue>`. */
  datatype JsValue =
    | JNull
    | JBool(b: bool)
    | JNum(n: int)
    | JStr(s: string)
    | JArr(items: seq<JsValue>)
    | JObj(props: seq<Prop>)

  type Prop = (string, JsValue)

  /** JavaScript truthiness; `None` is `undefined`. */
  predicate Truthy(v: Option<JsValue>) {
    match v
    case None => false
    case Some(JNull) => false
    case Some(JBool(b)) => b
    case Some(JNum(n)) => n != 0
    case Some(JStr(s)) => s != []
    case Some(JArr(_)) => true
    case Some(JObj(_)) => true
  }

  /** `typeof v === 'object' && v !== null && !Array.isArray(v)` */
  predicate IsPlainObject(v: JsValue) {
    v.JObj?
  }

  // ---------------------------------------------------------------------------
  // Decimal text
  // ---------------------------------------------------------------------------

  predicate IsDigit(c: char) {
    '0' <= c <= '9'
  }

  predicate AllDigits(s: string) {
    forall i :: 0 <= i < |s| ==> IsDigit(s[i])
  }

  function DigitChar(d: nat): (c: char)
    requires d < 10
    ensures IsDigit(c) && c as int - '0' as int == d
  {
    ('0' as int + d) as char
  }

  /** Shortest decimal text of a natural number. */
  function NatToDecimal(n: nat): (r: string)
    ensures |r| > 0 && AllDigits(r)
    ensures n > 0 ==> r[0] != '0'
    decreases n
  {
    if n < 10 then [DigitChar(n)] else NatToDecimal(n / 10) + [DigitChar(n % 10)]
  }

  /** `String(n)` for an integer number. */
  function IntToDecimal(i: int): string {
    if i < 0 then "-" + NatToDecimal(-i) else NatToDecimal(i)
  }

  /** The numeric value of a string of decimal digits (leading zeros allowed). */
  function DecimalValue(s: string): nat
    requires AllDigits(s)
  {
    if s == [] then 0 else DecimalValue(s[..|s| - 1]) * 10 + (s[|s| - 1] as int - '0' as int)
  }

  /** Reading back the text of `n` gives `n`. */
  lemma {:induction false} DecimalRoundTrip(n: nat)
    ensures DecimalValue(NatToDecimal(n)) == n
    decreases n
  {
    var r := NatToDecimal(n);
    if n >= 10 {
      DecimalRoundTrip(n / 10);
      assert r[..|r| - 1] == NatToDecimal(n / 10);
    }
  }

  /** A digit string denotes zero exactly when every digit is '0'. */
  lemma {:induction false} DecimalValueZero(s: string)
    requires AllDigits(s)
    ensures DecimalValue(s) == 0 <==> forall i :: 0 <= i < |s| ==> s[i] == '0'
    decreases |s|
  {
    if s != [] {
      var p := s[..|s| - 1];
      DecimalValueZero(p);
      assert forall i :: 0 <= i < |p| ==> p[i] == s[i];
    }
  }

  // ---------------------------------------------------------------------------
  // Property access
  // ---------------------------------------------------------------------------

  predicate HasKey(ps: seq<Prop>, k: string) {
    exists i :: 0 <= i < |ps| && ps[i].0 == k
  }

  /** The value of the first property named `k`. */
  function Lookup(ps: seq<Prop>, k: string): (r: Option<JsValue>)
    ensures r.Some? <==> HasKey(ps, k)
    ensures r.Some? ==> exists i :: 0 <= i < |ps| && ps[i] == (k, r.value) &&
                                    forall j :: 0 <= j < i ==> ps[j].0 != k
  {
    if ps == [] then None
    else if ps[0].0 == k then Some(ps[0].1)
    else
      var r := Lookup(ps[1..], k);
      assert HasKey(ps, k) ==> ps[0].0 == k || HasKey(ps[1..], k) by {
        if HasKey(ps, k) {
          var i :| 0 <= i < |ps| && ps[i].0 == k;
          if i > 0 { assert ps[1..][i - 1].0 == k; }
        }
      }
      if r.Some? then
        var i :| 0 <= i < |ps[1..]| && ps[1..][i] == (k, r.value) &&
                 forall j :: 0 <= j < i ==> ps[1..][j].0 != k;
        assert ps[i + 1] == (k, r.value);
        assert forall j :: 0 <= j < i + 1 ==> ps[j].0 != k by {
          forall j | 0 <= j < i + 1 ensures ps[j].0 != k {
            if j > 0 { assert ps[j] == ps[1..][j - 1]; }
          }
        }
        r
      else r
  }

  /** The own enumerable properties of a value, in `for...in` order: an
      object's properties, the indices of an array or a string, nothing for
      the other primitives. */
  function Props(v: JsValue): (r: seq<Prop>)
    ensures v.JObj? ==> r == v.props
    ensures v.JNull? || v.JBool? || v.JNum? ==> r == []
  {
    match v
    case JObj(ps) => ps
    case JArr(items) => seq(|items|, i requires 0 <= i < |items| => (NatToDecimal(i), items[i]))
    case JStr(s) => seq(|s|, i requires 0 <= i < |s| => (NatToDecimal(i), JStr([s[i]])))
    case _ => []
  }

  /** All own properties, adding the non-enumerable `length` of arrays and strings. */
  function OwnProps(v: JsValue): seq<Prop> {
    match v
    case JArr(items) => Props(v) + [("length", JNum(|items|))]
    case JStr(s) => Props(v) + [("length", JNum(|s|))]
    case _ => Props(v)
  }

  /** `v.hasOwnProperty(k)` */
  predicate HasOwn(v: JsValue, k: string) {
    HasKey(OwnProps(v), k)
  }

  /** A property whose name no earlier property carries is the one `Lookup` finds. */
  lemma LookupFirst(ps: seq<Prop>, i: nat)
    requires i < |ps| && forall j :: 0 <= j < i ==> ps[j].0 != ps[i].0
    ensures Lookup(ps, ps[i].0) == Some(ps[i].1)
  {
    assert HasKey(ps, ps[i].0);
    var r := Lookup(ps, ps[i].0);
    var k :| 0 <= k < |ps| && ps[k] == (ps[i].0, r.value) && forall j :: 0 <= j < k ==> ps[j].0 != ps[i].0;
    assert k == i;
  }

  /** `v[k]` on a value that is neither null nor undefined. Inherited
      properties are not part of the model. */
  function Get(v: JsValue, k: string): (r: Option<JsValue>)
    ensures r.Some? <==> HasOwn(v, k)
  {
    Lookup(OwnProps(v), k)
  }

  /** `obj[k] = v`: replaces the first property named `k` in place, or appends
      a new one at the end. */
  function Assign(ps: seq<Prop>, k: string, v: JsValue): (r: seq<Prop>)
    ensures |r| == if HasKey(ps, k) then |ps| else |ps| + 1
    ensures forall i :: 0 <= i < |ps| ==> r[i].0 == ps[i].0
  {
    if ps == [] then [(k, v)]
    else if ps[0].0 == k then [(k, v)] + ps[1..]
    else
      assert HasKey(ps, k) <==> HasKey(ps[1..], k) by {
        if HasKey(ps, k) {
          var i :| 0 <= i < |ps| && ps[i].0 == k;
          assert i > 0;
          assert ps[1..][i - 1].0 == k;
        }
        if HasKey(ps[1..], k) {
          var i :| 0 <= i < |ps[1..]| && ps[1..][i].0 == k;
          assert ps[i + 1].0 == k;
        }
      }
      [ps[0]] + Assign(ps[1..], k, v)
  }

  /** After an assignment, `k` reads the new value and every other key is unchanged. */
  lemma {:induction false} AssignLookup(ps: seq<Prop>, k: string, v: JsValue, k': string)
    ensures Lookup(Assign(ps, k, v), k') == if k' == k then Some(v) else Lookup(ps, k')
    decreases |ps|
  {
    if ps != [] && ps[0].0 != k {
      AssignLookup(ps[1..], k, v, k');
      var r := Assign(ps, k, v);
      assert r == [ps[0]] + Assign(ps[1..], k, v);
      assert r[1..] == Assign(ps[1..], k, v);
    }
  }

  /** The object literal `{ ...base, ...extra }` restricted to a literal
      `base`: every property of `extra`, in order, is assigned over `base`. */
  function Spread(base: seq<Prop>, extra: seq<Prop>): seq<Prop>
    decreases |extra|
  {
    if extra == [] then base
    else Assign(Spread(base, extra[..|extra| - 1]), extra[|extra| - 1].0, extra[|extra| - 1].1)
  }

  /** The value of the last property named `k` (the one a spread keeps). */
  function LookupLast(ps: seq<Prop>, k: string): Option<JsValue>
    decreases |ps|
  {
    if ps == [] then None
    else if ps[|ps| - 1].0 == k then Some(ps[|ps| - 1].1)
    else LookupLast(ps[..|ps| - 1], k)
  }

  /** `LookupLast` finds a value exactly for the names the properties carry. */
  lemma {:induction false} LookupLastPresent(ps: seq<Prop>, k: string)
    ensures LookupLast(ps, k).Some? <==> HasKey(ps, k)
    decreases |ps|
  {
    if ps != [] && ps[|ps| - 1].0 != k {
      var init := ps[..|ps| - 1];
      LookupLastPresent(init, k);
      if HasKey(ps, k) {
        var i :| 0 <= i < |ps| && ps[i].0 == k;
        assert init[i].0 == k;
      }
      if HasKey(init, k) {
        var i :| 0 <= i < |init| && init[i].0 == k;
        assert ps[i].0 == k;
      }
    }
  }

  /** A key carried by `extra` overrides `base`; any other key keeps `base`'s
      value; the keys of `base` keep their positions. */
  lemma {:induction false} SpreadLookup(base: seq<Prop>, extra: seq<Prop>, k: string)
    ensures Lookup(Spread(base, extra), k) ==
            if LookupLast(extra, k).Some? then LookupLast(extra, k) else Lookup(base, k)
    ensures |Spread(base, extra)| >= |base|
    ensures forall i :: 0 <= i < |base| ==> Spread(base, extra)[i].0 == base[i].0
    decreases |extra|
  {
    if extra != [] {
      var init := extra[..|extra| - 1];
      var last := extra[|extra| - 1];
      SpreadLookup(base, init, k);
      AssignLookup(Spread(base, init), last.0, last.1, k);
    }
  }

  // ---------------------------------------------------------------------------
  // String() and JSON.stringify
  // ---------------------------------------------------------------------------

  function JoinStrings(ss: seq<string>, sep: string): string {
    if ss == [] then ""
    else if |ss| == 1 then ss[0]
    else ss[0] + sep + JoinStrings(ss[1..], sep)
  }

  /** `String(v)`; an array joins its elements with ',' writing null as empty. */
  function ToJsString(v: Option<JsValue>): string {
    match v
    case None => "undefined"
    case Some(x) => Str(x)
  }

  function Str(x: JsValue): string
    decreases x
  {
    match x
    case JNull => "null"
    case JBool(b) => if b then "true" else "false"
    case JNum(n) => IntToDecimal(n)
    case JStr(s) => s
    case JArr(items) =>
      JoinStrings(seq(|items|, i requires 0 <= i < |items| =>
                        if items[i].JNull? then "" else Str(items[i])), ",")
    case JObj(_) => "[object Object]"
  }

  function HexDigit(d: nat): char
    requires d < 16
  {
    "0123456789abcdef"[d]
  }

  /** JSON string escaping as `JSON.stringify` performs it. */
  function EscapeChar(c: char): string {
    if c == '"' then "\\\""
    else if c == '\\' then "\\\\"
    else if c as int == 8 then "\\b"
    else if c as int == 12 then "\\f"
    else if c == '\n' then "\\n"
    else if c == '\r' then "\\r"
    else if c == '\t' then "\\t"
    else if c as int < 0x20 then "\\u00" + [HexDigit(c as int / 16), HexDigit(c as int % 16)]
    else [c]
  }

  function Escape(s: string): string {
    if s == [] then "" else EscapeChar(s[0]) + Escape(s[1..])
  }

  function Quote(s: string): string {
    "\"" + Escape(s) + "\""
  }

  /** A character JSON leaves as it is. */
  predicate IsPlainJsonChar(c: char) {
    c as int >= 0x20 && c != '"' && c != '\\'
  }

  /** Text without quotes, backslashes or control characters is not escaped. */
  lemma {:induction false} EscapePlain(s: string)
    requires forall i :: 0 <= i < |s| ==> IsPlainJsonChar(s[i])
    ensures Escape(s) == s
    decreases |s|
  {
    if s != [] {
      EscapePlain(s[1..]);
    }
  }

  lemma QuotePlain(s: string)
    requires forall i :: 0 <= i < |s| ==> IsPlainJsonChar(s[i])
    ensures Quote(s) == "\"" + s + "\""
  {
    EscapePlain(s);
  }

  /** `JSON.stringify(x)` with no indentation. */
  function Json(x: JsValue): string
    decreases x
  {
    match x
    case JNull => "null"
    case JBool(b) => if b then "true" else "false"
    case JNum(n) => IntToDecimal(n)
    case JStr(s) => Quote(s)
    case JArr(items) =>
      "[" + JoinStrings(seq(|items|, i requires 0 <= i < |items| => Json(items[i])), ",") + "]"
    case JObj(ps) =>
      "{" + JoinStrings(seq(|ps|, i requires 0 <= i < |ps| => Quote(ps[i].0) + ":" + Json(ps[i].1)), ",") + "}"
  }

  /** An object with one property serialises as `{"key":value}`. */
  lemma JsonSingleField(k: string, v: JsValue)
    ensures Json(JObj([(k, v)])) == "{" + Quote(k) + ":" + Json(v) + "}"
  {
    var ps := [(k, v)];
    var parts := seq(|ps|, i requires 0 <= i < |ps| => Quote(ps[i].0) + ":" + Json(ps[i].1));
    assert parts == [Quote(k) + ":" + Json(v)];
  }

  // ---------------------------------------------------------------------------
  // trim() and toLowerCase()
  // ---------------------------------------------------------------------------

  /** The characters `String.prototype.trim` removes: white space and line terminators. */
  predicate IsJsWhitespace(c: char) {
    var x := c as int;
    x == 0x09 || x == 0x0A || x == 0x0B || x == 0x0C || x == 0x0D || x == 0x20 ||
    x == 0xA0 || x == 0x1680 || (0x2000 <= x <= 0x200A) || x == 0x2028 || x == 0x2029 ||
    x == 0x202F || x == 0x205F || x == 0x3000 || x == 0xFEFF
  }

  /** Index of the first non-white-space character. */
  function TrimStartIndex(s: string): (k: nat)
    ensures k <= |s|
    ensures forall i :: 0 <= i < k ==> IsJsWhitespace(s[i])
    ensures k < |s| ==> !IsJsWhitespace(s[k])
  {
    if s == [] || !IsJsWhitespace(s[0]) then 0
    else
      var k := TrimStartIndex(s[1..]);
      assert forall i :: 1 <= i < k + 1 ==> s[i] == s[1..][i - 1];
      k + 1
  }

  /** One past the last non-white-space character. */
  function TrimEndIndex(s: string): (k: nat)
    ensures k <= |s|
    ensures forall i :: k <= i < |s| ==> IsJsWhitespace(s[i])
    ensures k > 0 ==> !IsJsWhitespace(s[k - 1])
    decreases |s|
  {
    if s == [] || !IsJsWhitespace(s[|s| - 1]) then |s|
    else TrimEndIndex(s[..|s| - 1])
  }

  /** `s.trim()`: the longest middle part that starts and ends with a
      non-white-space character, everything around it being white space. */
  function Trim(s: string): (r: string)
    ensures exists a, b :: 0 <= a <= b <= |s| && r == s[a..b] &&
                           (forall i :: 0 <= i < a ==> IsJsWhitespace(s[i])) &&
                           (forall i :: b <= i < |s| ==> IsJsWhitespace(s[i]))
    ensures r != [] ==> !IsJsWhitespace(r[0]) && !IsJsWhitespace(r[|r| - 1])
  {
    var a := TrimStartIndex(s);
    var t := s[a..];
    var b := TrimEndIndex(t);
    assert forall i :: a + b <= i < |s| ==> s[i] == t[i - a];
    s[a..a + b]
  }

  /** Trimming white space around a core that starts and ends with other
      characters gives back exactly that core. */
  lemma TrimExact(pre: string, core: string, post: string)
    requires forall i :: 0 <= i < |pre| ==> IsJsWhitespace(pre[i])
    requires forall i :: 0 <= i < |post| ==> IsJsWhitespace(post[i])
    requires core != [] && !IsJsWhitespace(core[0]) && !IsJsWhitespace(core[|core| - 1])
    ensures Trim(pre + core + post) == core
  {
    var s := pre + core + post;
    var a := TrimStartIndex(s);
    assert s[|pre|] == core[0];
    assert a == |pre|;
    var t := s[a..];
    assert t == core + post;
    var b := TrimEndIndex(t);
    assert t[|core| - 1] == core[|core| - 1];
    assert forall i :: |core| <= i < |t| ==> t[i] == post[i - |core|];
    assert b == |core|;
    assert s[a..a + b] == core;
  }

  function LowerChar(c: char): char {
    if 'A' <= c <= 'Z' then (c as int + 32) as char else c
  }

  /** `s.toLowerCase()` on the ASCII letters. */
  function AsciiLower(s: string): (r: string)
    ensures |r| == |s|
    ensures forall i :: 0 <= i < |s| ==> r[i] == LowerChar(s[i])
  {
    seq(|s|, i requires 0 <= i < |s| => LowerChar(s[i]))
  }

  // ---------------------------------------------------------------------------
  // Number()
  // ---------------------------------------------------------------------------

  /** What the server needs to know of a JavaScript number: NaN, an infinity,
      or a finite number through its integer part (`Math.trunc`). */
  datatype NumView = NaN | Infinite(negative: bool) | Finite(trunc: int)

  /** `Number(v)`. Parsing of numeric text is JavaScript's own and is supplied
      as `numberOf`; every other conversion is spelled out (an array goes
      through its `String()` text, a plain object is NaN). */
  function ToNumber(v: Option<JsValue>, numberOf: string -> NumView): NumView {
    match v
    case None => NaN
    case Some(JNull) => Finite(0)
    case Some(JBool(b)) => Finite(if b then 1 else 0)
    case Some(JNum(n)) => Finite(n)
    case Some(JStr(s)) => numberOf(s)
    case Some(JArr(_)) => numberOf(Str(v.value))
    case Some(JObj(_)) => NaN
  }
}

=== FILE: logger.dfy ===
/** The shared logger (server/logger.cjs): a level filter over four console
    writers and structured helpers that build a message and a metadata object
    before calling one of the writers. */
module Logger {
  import opened Wrappers
  import opened JsValues

  datatype Level = Debug | Info | Warn | Error

  /** `LOG_LEVELS`: a higher rank is a higher priority. */
  function Rank(l: Level): nat {
    match l
    case Debug => 0
    case Info => 1
    case Warn => 2
    case Error => 3
  }

  function Name(l: Level): string {
    match l
    case Debug => "debug"
    case Info => "info"
    case Warn => "warn"
    case Error => "error"
  }

  /** The level `name` denotes, as `LOG_LEVELS.hasOwnProperty(name)` decides. */
  function LevelNamed(name: string): (r: Option<Level>)
    ensures r.Some? ==> Name(r.value) == name
    ensures r.None? ==> forall l: Level :: Name(l) != name
  {
    if name == "debug" then Some(Debug)
    else if name == "info" then Some(Info)
    else if name == "warn" then Some(Warn)
    else if name == "error" then Some(Error)
    else None
  }

  /** The levels form a strict chain debug < info < warn < error. */
  lemma LevelsStrictlyOrdered()
    ensures Rank(Debug) < Rank(Info) < Rank(Warn) < Rank(Error)
    ensures forall a: Level, b: Level :: a != b ==> Rank(a) != Rank(b)
  {
  }

  /** The module-level `currentLogLevel`. */
  datatype Logger = Logger(current: Level)

  /** The level at load time is info. */
  const Initial: Logger := Logger(Info)

  /** `setLevel(name)`: only one of the four known names takes effect. */
  function SetLevel(lg: Logger, name: string): (r: Logger)
    ensures (exists l: Level :: Name(l) == name) ==> Name(r.current) == name
    ensures (forall l: Level :: Name(l) != name) ==> r == lg
  {
    match LevelNamed(name)
    case Some(l) => Logger(l)
    case None => lg
  }

  /** `shouldLog(level)` for a known level. */
  predicate ShouldLog(lg: Logger, l: Level) {
    Rank(l) >= Rank(lg.current)
  }

  /** `shouldLog(name)` for any argument: an unknown name compares
      `undefined >= n`, which is false. */
  function ShouldLogNamed(lg: Logger, name: string): (r: bool)
    ensures r <==> exists l: Level :: Name(l) == name && Rank(l) >= Rank(lg.current)
  {
    match LevelNamed(name)
    case Some(l) => ShouldLog(lg, l)
    case None => false
  }

  /** The filter is monotone in the level, always lets errors through, and
      initially hides debug output. */
  lemma ShouldLogMonotone(lg: Logger, a: Level, b: Level)
    requires Rank(a) <= Rank(b)
    ensures ShouldLog(lg, a) ==> ShouldLog(lg, b)
    ensures ShouldLog(lg, Error)
    ensures !ShouldLog(Initial, Debug) && ShouldLog(Initial, Info)
  {
  }

  // ---------------------------------------------------------------------------
  // Console writers
  // ---------------------------------------------------------------------------

  /** `console.log` writes to standard output, `console.warn` and `console.error` to standard error. */
  datatype Stream = Stdout | Stderr

  datatype ConsoleLine = ConsoleLine(stream: Stream, text: string, meta: JsValue)

  function Tag(l: Level): string {
    match l
    case Debug => "[DEBUG]"
    case Info => "[INFO ]"
    case Warn => "[WARN ]"
    case Error => "[ERROR]"
  }

  /** `logger.info/debug/warn/error(msg, meta)` at clock reading `ts`: one
      console line `[LEVEL] ts msg` when the filter admits the level, none
      otherwise; the metadata is printed as given, or as '' when it is
      missing or null. */
  function Write(lg: Logger, l: Level, msg: string, meta: Option<JsValue>, ts: string): (r: Option<ConsoleLine>)
    ensures r.Some? <==> Rank(l) >= Rank(lg.current)
    ensures r.Some? ==> (r.value.stream == Stderr <==> Rank(l) >= Rank(Warn))
    ensures r.Some? ==> StartsWith(r.value.text, Tag(l) + " " + ts + " ")
    ensures r.Some? ==> |r.value.text| == |Tag(l) + " " + ts + " "| + |msg| && r.value.text[|r.value.text| - |msg|..] == msg
    ensures r.Some? && (meta.None? || meta == Some(JNull)) ==> r.value.meta == JStr("")
    ensures r.Some? && meta.Some? && meta != Some(JNull) ==> r.value.meta == meta.value
  {
    if !ShouldLog(lg, l) then None
    else
      var stream := if l == Warn || l == Error then Stderr else Stdout;
      var shown := match meta { case Some(JNull) => JStr("") case Some(m) => m case None => JStr("") };
      Some(ConsoleLine(stream, Tag(l) + " " + ts + " " + msg, shown))
  }

  /** The level whose tag is `t`, if any. */
  function TagLevel(t: string): (r: Option<Level>)
    ensures r.Some? ==> Tag(r.value) == t
    ensures r.None? ==> forall l: Level :: Tag(l) != t
  {
    if t == "[DEBUG]" then Some(Debug)
    else if t == "[INFO ]" then Some(Info)
    else if t == "[WARN ]" then Some(Warn)
    else if t == "[ERROR]" then Some(Error)
    else None
  }

  /** Reads a console line written at clock reading `ts` back into its level
      and message. */
  function ReadLine(text: string, ts: string): Option<(Level, string)> {
    var head := 7 + 1 + |ts| + 1;
    if |text| < head || text[7] != ' ' || text[8..8 + |ts|] != ts || text[8 + |ts|] != ' ' then None
    else match TagLevel(text[..7])
      case Some(l) => Some((l, text[head..]))
      case None => None
  }

  /** Every console line reads back as the level and the message written. */
  lemma WriteReadBack(lg: Logger, l: Level, msg: string, meta: Option<JsValue>, ts: string)
    requires Rank(l) >= Rank(lg.current)
    ensures Write(lg, l, msg, meta, ts).Some?
    ensures ReadLine(Write(lg, l, msg, meta, ts).value.text, ts) == Some((l, msg))
  {
    var text := Write(lg, l, msg, meta, ts).value.text;
    assert text == Tag(l) + " " + ts + " " + msg;
    assert |Tag(l)| == 7;
    assert text[..7] == Tag(l);
    assert text[8..8 + |ts|] == ts;
    assert text[9 + |ts|..] == msg;
  }

  // ---------------------------------------------------------------------------
  // Structured helpers
  // ---------------------------------------------------------------------------

  /** One call of `logger[level](msg, meta)`. */
  datatype LogCall = LogCall(level: Level, msg: string, meta: Option<JsValue>)

  function Tagged(kind: string, action: string, fields: seq<Prop>, data: seq<Prop>): JsValue {
    JObj(Spread([("type", JStr(kind)), ("action", JStr(action))] + fields, data))
  }

  /** The value of `k` in the caller's data, or `v` when the data has none. */
  function DataOr(data: seq<Prop>, k: string, v: JsValue): Option<JsValue> {
    if LookupLast(data, k).Some? then LookupLast(data, k) else Some(v)
  }

  /** The names of a list of properties, in order. */
  function Names(ps: seq<Prop>): (r: seq<string>)
    ensures |r| == |ps| && forall i :: 0 <= i < |ps| ==> r[i] == ps[i].0
  {
    seq(|ps|, i requires 0 <= i < |ps| => ps[i].0)
  }

  /** The metadata of a helper: its kind as `type`, its `action`, and every
      property of the caller's data, which wins on a clash; besides those
      and the helper's `own` fields it has no property. */
  ghost predicate CarriesTags(meta: seq<Prop>, kind: string, action: string, own: seq<string>, data: seq<Prop>) {
    && Lookup(meta, "type") == DataOr(data, "type", JStr(kind))
    && Lookup(meta, "action") == DataOr(data, "action", JStr(action))
    && (forall k :: LookupLast(data, k).Some? ==> Lookup(meta, k) == LookupLast(data, k))
    && (forall k :: HasKey(meta, k) <==> k == "type" || k == "action" || k in own || HasKey(data, k))
  }

  /** `logMqtt(level, action, data)` */
  function LogMqtt(level: Level, action: string, data: seq<Prop>): (r: LogCall)
    ensures r.level == level && r.msg == "MQTT " + action
    ensures r.meta.Some? && r.meta.value.JObj?
    ensures CarriesTags(r.meta.value.props, "mqtt", action, [], data)
  {
    TagOverridable("mqtt", action, [], data);
    assert Names([]) == [];
    LogCall(level, "MQTT " + action, Some(Tagged("mqtt", action, [], data)))
  }

  /** `logServer(level, action, data)` */
  function LogServer(level: Level, action: string, data: seq<Prop>): (r: LogCall)
    ensures r.level == level && r.msg == "Server " + action
    ensures r.meta.Some? && r.meta.value.JObj?
    ensures CarriesTags(r.meta.value.props, "server", action, [], data)
  {
    TagOverridable("server", action, [], data);
    assert Names([]) == [];
    LogCall(level, "Server " + action, Some(Tagged("server", action, [], data)))
  }

  /** `logClient(level, action, clientId, data)`; an undefined `clientId`
      prints as "undefined" and carries no `clientId` key. */
  function LogClient(level: Level, action: string, clientId: Option<JsValue>, data: seq<Prop>): (r: LogCall)
    ensures r.level == level && r.msg == "Client " + action + ": " + ToJsString(clientId)
    ensures r.meta.Some? && r.meta.value.JObj?
    ensures CarriesTags(r.meta.value.props, "client", action, if clientId.Some? then ["clientId"] else [], data)
    ensures LookupLast(data, "clientId").None? ==> Lookup(r.meta.value.props, "clientId") == clientId
  {
    var fields := if clientId.Some? then [("clientId", clientId.value)] else [];
    TagOverridable("client", action, fields, data);
    assert Names(fields) == if clientId.Some? then ["clientId"] else [];
    ClientField(action, clientId, data);
    LogCall(level, "Client " + action + ": " + ToJsString(clientId), Some(Tagged("client", action, fields, data)))
  }

  predicate EndsWith(s: string, suffix: string) {
    |suffix| <= |s| && s[|s| - |suffix|..] == suffix
  }

  lemma EndsWithConcat(s: string, t: string)
    ensures EndsWith(s + t, t)
  {
    assert (s + t)[|s|..] == t;
  }

  predicate StartsWith(s: string, prefix: string) {
    |prefix| <= |s| && s[..|prefix|] == prefix
  }

  /** `logSafety(level, action, safe, reason, data)`: the message is
      "Safety {action}: " followed by SAFE or UNSAFE according to `safe`,
      and ends with the reason in parentheses exactly when the reason is
      truthy. The metadata records `safe` and `reason` unless the caller's
      data carries those names. */
  function LogSafety(level: Level, action: string, safe: JsValue, reason: Option<JsValue>, data: seq<Prop>): (r: LogCall)
    ensures r.level == level && r.meta.Some? && r.meta.value.JObj?
    ensures StartsWith(r.msg, SafetyHead(action))
    ensures StartsWith(r.msg, SafetyHead(action)) ==>
              var rest := r.msg[|SafetyHead(action)|..];
              && (StartsWith(rest, "SAFE") <==> Truthy(Some(safe)))
              && (StartsWith(rest, "UNSAFE") <==> !Truthy(Some(safe)))
              && (!Truthy(reason) ==> rest == "SAFE" || rest == "UNSAFE")
    ensures Truthy(reason) ==> EndsWith(r.msg, " (" + ToJsString(reason) + ")")
    ensures !Truthy(reason) ==> (EndsWith(r.msg, ": SAFE") <==> Truthy(Some(safe)))
    ensures !Truthy(reason) ==> EndsWith(r.msg, "SAFE")
    ensures LookupLast(data, "safe").None? ==> Lookup(r.meta.value.props, "safe") == Some(safe)
    ensures LookupLast(data, "reason").None? ==> Lookup(r.meta.value.props, "reason") == reason
    ensures CarriesTags(r.meta.value.props, "safety", action, ["safe"] + (if reason.Some? then ["reason"] else []), data)
  {
    SafetyMessage(action, safe, reason);
    SafetyFields(action, safe, reason, data);
    TagOverridable("safety", action, SafetyMeta(safe, reason), data);
    assert Names(SafetyMeta(safe, reason)) == ["safe"] + (if reason.Some? then ["reason"] else []);
    LogCall(level, SafetyText(action, safe, reason), Some(Tagged("safety", action, SafetyMeta(safe, reason), data)))
  }

  function SafetyHead(action: string): string {
    "Safety " + action + ": "
  }

  function SafetyText(action: string, safe: JsValue, reason: Option<JsValue>): string {
    SafetyHead(action) + (if Truthy(Some(safe)) then "SAFE" else "UNSAFE") +
    (if Truthy(reason) then " (" + ToJsString(reason) + ")" else "")
  }

  /** The fields `safe` and `reason` of the metadata literal; an undefined
      reason adds no property. */
  function SafetyMeta(safe: JsValue, reason: Option<JsValue>): seq<Prop> {
    [("safe", safe)] + (if reason.Some? then [("reason", reason.value)] else [])
  }

  lemma SafetyMessage(action: string, safe: JsValue, reason: Option<JsValue>)
    ensures var msg := SafetyText(action, safe, reason);
            var head := SafetyHead(action);
            && StartsWith(msg, head)
            && (StartsWith(msg, head) ==>
                  var rest := msg[|head|..];
                  && (StartsWith(rest, "SAFE") <==> Truthy(Some(safe)))
                  && (StartsWith(rest, "UNSAFE") <==> !Truthy(Some(safe)))
                  && (!Truthy(reason) ==> rest == "SAFE" || rest == "UNSAFE"))
            && (Truthy(reason) ==> EndsWith(msg, " (" + ToJsString(reason) + ")"))
            && (!Truthy(reason) ==> (EndsWith(msg, ": SAFE") <==> Truthy(Some(safe))))
            && (!Truthy(reason) ==> EndsWith(msg, "SAFE"))
  {
    SafetyPrefix(action, safe, reason);
    SafetySuffix(action, safe, reason);
  }

  /** The head, then the word that `safe` selects. */
  lemma SafetyPrefix(action: string, safe: JsValue, reason: Option<JsValue>)
    ensures var msg := SafetyText(action, safe, reason);
            var head := SafetyHead(action);
            && StartsWith(msg, head)
            && (StartsWith(msg, head) ==>
                  var rest := msg[|head|..];
                  && (StartsWith(rest, "SAFE") <==> Truthy(Some(safe)))
                  && (StartsWith(rest, "UNSAFE") <==> !Truthy(Some(safe)))
                  && (!Truthy(reason) ==> rest == "SAFE" || rest == "UNSAFE"))
  {
    var head := SafetyHead(action);
    var word := if Truthy(Some(safe)) then "SAFE" else "UNSAFE";
    var suffix := if Truthy(reason) then " (" + ToJsString(reason) + ")" else "";
    var msg := head + word + suffix;
    assert msg == SafetyText(action, safe, reason);
    assert msg[..|head|] == head;
    assert msg[|head|..] == word + suffix;
    if word == "SAFE" {
      assert (word + suffix)[0] == 'S';
    } else {
      assert (word + suffix)[0] == 'U';
    }
    assert (word + suffix)[..|word|] == word;
  }

  /** The reason in parentheses, or the bare word after ": ". */
  lemma SafetySuffix(action: string, safe: JsValue, reason: Option<JsValue>)
    ensures var msg := SafetyText(action, safe, reason);
            && (Truthy(reason) ==> EndsWith(msg, " (" + ToJsString(reason) + ")"))
            && (!Truthy(reason) ==> (EndsWith(msg, ": SAFE") <==> Truthy(Some(safe))))
            && (!Truthy(reason) ==> EndsWith(msg, "SAFE"))
  {
    var head := SafetyHead(action);
    var word := if Truthy(Some(safe)) then "SAFE" else "UNSAFE";
    var suffix := if Truthy(reason) then " (" + ToJsString(reason) + ")" else "";
    var msg := head + word + suffix;
    assert msg == SafetyText(action, safe, reason);
    EndsWithConcat(head + word, suffix);
    if suffix == "" {
      assert msg == head + word;
      EndsWithConcat(head, word);
      EndsWithConcat("Safety " + action, ": " + word);
      assert head + word == ("Safety " + action) + (": " + word);
    }
  }

  /** The `safe` and `reason` fields sit after the tags and before the
      caller's data. */
  lemma SafetyFields(action: string, safe: JsValue, reason: Option<JsValue>, data: seq<Prop>)
    ensures var meta := Tagged("safety", action, SafetyMeta(safe, reason), data).props;
            && (LookupLast(data, "safe").None? ==> Lookup(meta, "safe") == Some(safe))
            && (LookupLast(data, "reason").None? ==> Lookup(meta, "reason") == reason)
  {
    var base := [("type", JStr("safety")), ("action", JStr(action))] + SafetyMeta(safe, reason);
    SpreadLookup(base, data, "safe");
    SpreadLookup(base, data, "reason");
    SafetyBase(action, safe, reason);
  }

  lemma SafetyBase(action: string, safe: JsValue, reason: Option<JsValue>)
    ensures var base := [("type", JStr("safety")), ("action", JStr(action))] + SafetyMeta(safe, reason);
            Lookup(base, "safe") == Some(safe) && Lookup(base, "reason") == reason
  {
    var base := [("type", JStr("safety")), ("action", JStr(action))] + SafetyMeta(safe, reason);
    assert base[0].0 == "type" && base[1].0 == "action" && base[2] == ("safe", safe);
    assert "type" != "safe" && "action" != "safe" && "type" != "reason" && "action" != "reason" && "safe" != "reason";
    if reason.Some? {
      assert base[3] == ("reason", reason.value) && |base| == 4;
    } else {
      assert |base| == 3;
    }
  }

  /** The helpers tag the metadata with their kind and action, but the
      caller's data is spread last and wins on a clash. */
  lemma {:induction false} TagOverridable(kind: string, action: string, fields: seq<Prop>, data: seq<Prop>)
    ensures CarriesTags(Tagged(kind, action, fields, data).props, kind, action, Names(fields), data)
    ensures var meta := Tagged(kind, action, fields, data).props;
            meta[0].0 == "type" && meta[1].0 == "action"
  {
    var base := [("type", JStr(kind)), ("action", JStr(action))] + fields;
    SpreadLookup(base, data, "type");
    SpreadLookup(base, data, "action");
    forall k | LookupLast(data, k).Some?
      ensures Lookup(Spread(base, data), k) == LookupLast(data, k)
    {
      SpreadLookup(base, data, k);
    }
    forall k
      ensures HasKey(Spread(base, data), k) <==> k == "type" || k == "action" || k in Names(fields) || HasKey(data, k)
    {
      SpreadLookup(base, data, k);
      LookupLastPresent(data, k);
      BaseKeys(kind, action, fields, k);
    }
  }

  /** The literal before the spread has the two tags and the helper's fields. */
  lemma BaseKeys(kind: string, action: string, fields: seq<Prop>, k: string)
    ensures HasKey([("type", JStr(kind)), ("action", JStr(action))] + fields, k) <==>
            k == "type" || k == "action" || k in Names(fields)
  {
    var base := [("type", JStr(kind)), ("action", JStr(action))] + fields;
    if HasKey(base, k) {
      var i :| 0 <= i < |base| && base[i].0 == k;
      if i >= 2 {
        assert Names(fields)[i - 2] == k;
      }
    }
    if k == "type" {
      assert base[0].0 == k;
    } else if k == "action" {
      assert base[1].0 == k;
    } else if k in Names(fields) {
      var j :| 0 <= j < |fields| && Names(fields)[j] == k;
      assert base[j + 2].0 == k;
    }
  }

  /** `logClient` records the client id after the tags unless the caller's
      data carries one. */
  lemma ClientField(action: string, clientId: Option<JsValue>, data: seq<Prop>)
    ensures var fields := if clientId.Some? then [("clientId", clientId.value)] else [];
            LookupLast(data, "clientId").None? ==> Lookup(Tagged("client", action, fields, data).props, "clientId") == clientId
  {
    var fields := if clientId.Some? then [("clientId", clientId.value)] else [];
    var base := [("type", JStr("client")), ("action", JStr(action))] + fields;
    SpreadLookup(base, data, "clientId");
    assert base[0].0 == "type" && base[1].0 == "action";
    assert "type" != "clientId" && "action" != "clientId";
    if clientId.Some? {
      assert base[2] == ("clientId", clientId.value) && |base| == 3;
    } else {
      assert |base| == 2;
    }
  }
}

=== FILE: mqtt.dfy ===
/** The MQTT bridge manager (server/mqtt.cjs) as a state machine. The broker
    library is foreign code: a client it creates is represented by a handle,
    the calls the manager makes on a client are outputs, and the events a
    client fires are inputs. Every client created is remembered together with
    the configuration its event handlers closed over, because those handlers
    keep acting on the manager after the client has been replaced. */
module Mqtt {
  import opened Wrappers
  import opened JsValues
  import opened Logger

  /** The `mqtt` section of the configuration, in the shape the defaults give it. */
  datatype MqttConfig = MqttConfig(
    enabled: bool,
    autoConnect: bool,
    host: string,
    port: int,
    username: string,
    password: string,
    baseTopic: string,
    clientId: string)

  /** `client` is an index into `spawned`, the configurations of every client
      created so far, oldest first. */
  datatype Manager = Manager(
    client: Option<nat>,
    config: Option<MqttConfig>,
    connected: bool,
    messageCount: nat,
    spawned: seq<MqttConfig>)

  /** The freshly constructed manager. */
  const Fresh: Manager := Manager(None, None, false, 0, [])

  /** The handle bookkeeping every reachable manager satisfies: the current
      client exists and was created from the stored configuration. */
  predicate Valid(m: Manager) {
    m.client.Some? ==> m.client.value < |m.spawned| && m.config == Some(m.spawned[m.client.value])
  }

  /** A call the manager makes into the broker library. `Open` is
      `mqtt.connect(url, options)`; an empty user name or password is passed
      as undefined. */
  datatype ClientCall =
    | Open(url: string, clientId: string, username: Option<string>, password: Option<string>)
    | Subscribe(handle: nat, topic: string)
    | Publish(handle: nat, topic: string, payload: string, retain: bool)
    | End(handle: nat)

  /** An event the manager emits to its own listeners. */
  datatype Emitted =
    | EConnected
    | EDisconnected
    | EOffline
    | EError(message: string)
    | EMessage(topic: string, payload: string)

  /** A transition: the new manager, the library calls, the emitted events,
      the log calls, in order, and the message of an exception that escapes
      the handler, if any. */
  datatype Step = Step(m: Manager, calls: seq<ClientCall>, emitted: seq<Emitted>, logs: seq<LogCall>, fault: Option<string>)

  function Quiet(m: Manager): Step {
    Step(m, [], [], [], None)
  }

  function BrokerUrl(c: MqttConfig): string {
    "mqtt://" + c.host + ":" + IntToDecimal(c.port)
  }

  function CommandTopic(c: MqttConfig): string {
    c.baseTopic + "/command/safe"
  }

  /** `x || undefined` for a string option. */
  function NonEmpty(s: string): (r: Option<string>)
    ensures r.Some? <==> s != ""
    ensures r.Some? ==> r.value == s
  {
    if s == "" then None else Some(s)
  }

  function Info0(msg: string): LogCall {
    LogCall(Info, msg, None)
  }

  // ---------------------------------------------------------------------------
  // disconnect / connect
  // ---------------------------------------------------------------------------

  /** `disconnect()`: with a client, end it, forget it, drop the flag and
      announce it once; without one, nothing at all. */
  function Disconnect(m: Manager): (r: Step)
    ensures m.client.None? ==> r == Quiet(m)
    ensures m.client.Some? ==>
              && r.m == m.(client := None, connected := false)
              && r.calls == [End(m.client.value)]
              && r.emitted == [EDisconnected]
              && r.logs == [Info0("Disconnecting from MQTT broker")]
              && r.fault.None?
  {
    match m.client
    case None => Quiet(m)
    case Some(h) =>
      Step(m.(client := None, connected := false), [End(h)], [EDisconnected],
           [Info0("Disconnecting from MQTT broker")], None)
  }

  /** `connect(config)`. `openThrows` is the message of the exception
      `mqtt.connect` throws, if it does. An existing client is torn down
      first; the configuration is always stored; a disabled configuration
      stops there. */
  function Connect(m: Manager, c: MqttConfig, openThrows: Option<string>): (r: Step)
    ensures var d := Disconnect(m);
            && r.m.config == Some(c)
            && r.m.messageCount == m.messageCount
            && r.m.connected == d.m.connected
            && r.fault.None?
            && d.calls <= r.calls && d.emitted <= r.emitted && d.logs <= r.logs
    ensures r.calls == Disconnect(m).calls +
              if c.enabled && openThrows.None? then [Open(BrokerUrl(c), c.clientId, NonEmpty(c.username), NonEmpty(c.password))] else []
    ensures r.emitted == Disconnect(m).emitted + if c.enabled && openThrows.Some? then [EError(openThrows.value)] else []
    ensures !c.enabled ==> r.logs == Disconnect(m).logs + [Info0("MQTT disabled in configuration")]
    ensures c.enabled ==>
              && |r.logs| == |Disconnect(m).logs| + (if openThrows.Some? then 2 else 1)
              && r.logs[|Disconnect(m).logs|] == LogCall(Info, "Connecting to MQTT broker",
                                                         Some(JObj([("url", JStr(BrokerUrl(c))), ("clientId", JStr(c.clientId))])))
    ensures !c.enabled ==>
              r.m.client.None? && r.m.spawned == m.spawned && r.calls == Disconnect(m).calls
    ensures c.enabled && openThrows.None? ==>
              && r.m.client == Some(|m.spawned|)
              && r.m.spawned == m.spawned + [c]
              && |r.calls| > 0 && r.calls[|r.calls| - 1] == Open(BrokerUrl(c), c.clientId, NonEmpty(c.username), NonEmpty(c.password))
    ensures c.enabled && openThrows.Some? ==>
              && r.m.client.None? && r.m.spawned == m.spawned
              && |r.emitted| > 0 && r.emitted[|r.emitted| - 1] == EError(openThrows.value)
              && |r.logs| > 0 && r.logs[|r.logs| - 1] == LogCall(Error, "Failed to connect to MQTT broker",
                                                  Some(JObj([("error", JStr(openThrows.value))])))
  {
    var d := Disconnect(m);
    var m1 := d.m.(config := Some(c));
    if !c.enabled then
      Step(m1, d.calls, d.emitted, d.logs + [Info0("MQTT disabled in configuration")], None)
    else
      var url := BrokerUrl(c);
      var announce := LogCall(Info, "Connecting to MQTT broker",
                              Some(JObj([("url", JStr(url)), ("clientId", JStr(c.clientId))])));
      match openThrows
      case Some(e) =>
        Step(m1, d.calls, d.emitted + [EError(e)],
             d.logs + [announce, LogCall(Error, "Failed to connect to MQTT broker", Some(JObj([("error", JStr(e))])))],
             None)
      case None =>
        var h := |m.spawned|;
        Step(m1.(client := Some(h), spawned := m.spawned + [c]),
             d.calls + [Open(url, c.clientId, NonEmpty(c.username), NonEmpty(c.password))],
             d.emitted, d.logs + [announce], None)
  }

  // ---------------------------------------------------------------------------
  // Library events
  // ---------------------------------------------------------------------------

  /** What a client fires. `SubAck` is the completion of the subscription
      requested by that client's `connect` handler. */
  datatype LibEvent =
    | LConnect
    | LSubAck(err: Option<string>)
    | LMessage(topic: string, message: string)
    | LError(message: string)
    | LClose
    | LOffline
    | LReconnect

  /** The handlers registered on client `from`. They close over the manager
      and over `from`'s configuration, not over the manager's current client:
      a stale client still changes `connected`, and its `connect` handler
      subscribes through whatever client is current, throwing a TypeError
      when there is none. */
  function OnEvent(m: Manager, from: nat, ev: LibEvent): (r: Step)
    requires from < |m.spawned|
    ensures r.m.client == m.client && r.m.config == m.config && r.m.spawned == m.spawned
    ensures r.m.messageCount == m.messageCount + (if ev.LMessage? then 1 else 0)
    ensures r.m.connected == (if ev.LConnect? then true
                              else if ev.LError? || ev.LClose? || ev.LOffline? then false
                              else m.connected)
    ensures ev.LConnect? ==> r.emitted == [EConnected]
    ensures ev.LConnect? && m.client.Some? ==>
              r.calls == [Subscribe(m.client.value, CommandTopic(m.spawned[from]))] && r.fault.None?
    ensures ev.LConnect? && m.client.None? ==> r.calls == [] && r.fault == Some("TypeError")
    ensures !ev.LConnect? ==> r.calls == [] && r.fault.None?
    ensures ev.LClose? ==> r.emitted == [EDisconnected]
    ensures ev.LOffline? ==> r.emitted == [EOffline]
    ensures ev.LError? ==> r.emitted == [EError(ev.message)]
    ensures ev.LMessage? ==> r.emitted == [EMessage(ev.topic, ev.message)]
    ensures ev.LSubAck? || ev.LReconnect? ==> r.emitted == []
    ensures |r.logs| == 1
    ensures ev.LConnect? ==>
              r.logs[0] == LogCall(Info, "MQTT connected successfully",
                                   Some(JObj([("host", JStr(m.spawned[from].host)), ("port", JNum(m.spawned[from].port)),
                                              ("clientId", JStr(m.spawned[from].clientId))])))
    ensures ev.LSubAck? && ev.err.Some? ==>
              r.logs[0] == LogCall(Error, "MQTT subscription failed", Some(JObj([("error", JStr(ev.err.value))])))
    ensures ev.LSubAck? && ev.err.None? ==>
              r.logs[0] == LogCall(Info, "MQTT subscribed to command topic",
                                   Some(JObj([("topic", JStr(CommandTopic(m.spawned[from])))])))
    ensures ev.LMessage? ==>
              r.logs[0] == LogCall(Info, "MQTT message received",
                                   Some(JObj([("topic", JStr(ev.topic)), ("message", JStr(ev.message))])))
    ensures ev.LError? ==> r.logs[0] == LogCall(Error, "MQTT error", Some(JObj([("error", JStr(ev.message))])))
    ensures ev.LClose? ==>
              r.logs[0] == LogCall(Warn, "MQTT connection closed", Some(JObj([("wasConnected", JBool(m.connected))])))
    ensures ev.LOffline? ==>
              r.logs[0] == LogCall(Warn, "MQTT client offline", Some(JObj([("wasConnected", JBool(m.connected))])))
    ensures ev.LReconnect? ==> r.logs[0] == LogCall(Info, "MQTT attempting to reconnect...", None)
  {
    var c := m.spawned[from];
    match ev
    case LConnect =>
      var m1 := m.(connected := true);
      var hello := LogCall(Info, "MQTT connected successfully",
                           Some(JObj([("host", JStr(c.host)), ("port", JNum(c.port)), ("clientId", JStr(c.clientId))])));
      (match m.client
       case Some(h) => Step(m1, [Subscribe(h, CommandTopic(c))], [EConnected], [hello], None)
       case None => Step(m1, [], [EConnected], [hello], Some("TypeError")))
    case LSubAck(err) =>
      (match err
       case Some(e) => Step(m, [], [], [LogCall(Error, "MQTT subscription failed", Some(JObj([("error", JStr(e))])))], None)
       case None => Step(m, [], [], [LogCall(Info, "MQTT subscribed to command topic",
                                             Some(JObj([("topic", JStr(CommandTopic(c)))])))], None))
    case LMessage(topic, msg) =>
      Step(m.(messageCount := m.messageCount + 1), [], [EMessage(topic, msg)],
           [LogCall(Info, "MQTT message received", Some(JObj([("topic", JStr(topic)), ("message", JStr(msg))])))], None)
    case LError(e) =>
      Step(m.(connected := false), [], [EError(e)],
           [LogCall(Error, "MQTT error", Some(JObj([("error", JStr(e))])))], None)
    case LClose =>
      Step(m.(connected := false), [], [EDisconnected],
           [LogCall(Warn, "MQTT connection closed", Some(JObj([("wasConnected", JBool(m.connected))])))], None)
    case LOffline =>
      Step(m.(connected := false), [], [EOffline],
           [LogCall(Warn, "MQTT client offline", Some(JObj([("wasConnected", JBool(m.connected))])))], None)
    case LReconnect =>
      Step(m, [], [], [Info0("MQTT attempting to reconnect...")], None)
  }

  /** `close` reports the flag as it was before the event: right after a
      `connect` it reports true, and a repeated `close` reports false. */
  lemma CloseReportsPriorFlag(m: Manager, from: nat)
    requires from < |m.spawned|
    ensures var a := OnEvent(m, from, LConnect);
            var b := OnEvent(a.m, from, LClose);
            var c := OnEvent(b.m, from, LClose);
            && b.logs == [LogCall(Warn, "MQTT connection closed", Some(JObj([("wasConnected", JBool(true))])))]
            && c.logs == [LogCall(Warn, "MQTT connection closed", Some(JObj([("wasConnected", JBool(false))])))]
  {
  }

  // ---------------------------------------------------------------------------
  // Publishing and status
  // ---------------------------------------------------------------------------

  /** The outcome of `publish`: whether it reports success, the library calls
      and the log calls. The manager itself is never changed. */
  datatype Sent = Sent(ok: bool, calls: seq<ClientCall>, logs: seq<LogCall>)

  /** `publish(topic, message, { retain })`: a message goes out only through
      a present client that is connected. */
  function PublishOne(m: Manager, topic: string, message: string, retain: bool): (r: Sent)
    ensures r.ok <==> m.client.Some? && m.connected
    ensures r.ok ==> r.calls == [Publish(m.client.value, topic, message, retain)]
    ensures !r.ok ==> r.calls == []
    ensures |r.logs| == 1 && r.logs[0].level == (if r.ok then Debug else Warn)
    ensures r.logs[0].meta == Some(JObj([("topic", JStr(topic)), ("message", JStr(message))]))
  {
    var meta := Some(JObj([("topic", JStr(topic)), ("message", JStr(message))]));
    if m.client.None? || !m.connected then
      Sent(false, [], [LogCall(Warn, "Cannot publish: MQTT not connected", meta)])
    else
      Sent(true, [Publish(m.client.value, topic, message, retain)], [LogCall(Debug, "MQTT message published", meta)])
  }

  /** The five retained (topic, payload) pairs `publishStatus` sends for a
      status object, in order. */
  function StatusMessages(baseTopic: string, status: seq<Prop>): seq<(string, string)> {
    var clientFlag := if Truthy(Lookup(status, "clientConnected")) then Lookup(status, "clientConnected") else Some(JBool(false));
    [(baseTopic + "/status", Json(JObj(status))),
     (baseTopic + "/safe", ToJsString(Lookup(status, "isSafe"))),
     (baseTopic + "/connected", ToJsString(Lookup(status, "connected"))),
     (baseTopic + "/client", ToJsString(clientFlag)),
     (baseTopic + "/uptime", ToJsString(Lookup(status, "uptimeSec")))]
  }

  /** `publish` applied to each message in turn with `retain` set. */
  function PublishAll(m: Manager, msgs: seq<(string, string)>): (r: Sent)
    ensures |r.logs| == |msgs|
    decreases |msgs|
  {
    if msgs == [] then Sent(true, [], [])
    else
      var first := PublishOne(m, msgs[0].0, msgs[0].1, true);
      var rest := PublishAll(m, msgs[1..]);
      Sent(first.ok && rest.ok, first.calls + rest.calls, first.logs + rest.logs)
  }

  /** The retained publish calls for `msgs` through client `h`. */
  function Retained(h: nat, msgs: seq<(string, string)>): (r: seq<ClientCall>)
    ensures |r| == |msgs|
    ensures forall i :: 0 <= i < |msgs| ==> r[i] == Publish(h, msgs[i].0, msgs[i].1, true)
  {
    seq(|msgs|, i requires 0 <= i < |msgs| => Publish(h, msgs[i].0, msgs[i].1, true))
  }

  /** Publishing a list through a live client sends every message, in order,
      each retained; through a missing or disconnected client it sends none. */
  lemma {:induction false} PublishAllSends(m: Manager, msgs: seq<(string, string)>)
    ensures m.client.Some? && m.connected ==> PublishAll(m, msgs).calls == Retained(m.client.value, msgs)
    ensures !(m.client.Some? && m.connected) ==> PublishAll(m, msgs).calls == []
    decreases |msgs|
  {
    if msgs != [] {
      PublishAllSends(m, msgs[1..]);
      if m.client.Some? && m.connected {
        var h := m.client.value;
        assert Retained(h, msgs) == [Publish(h, msgs[0].0, msgs[0].1, true)] + Retained(h, msgs[1..]);
      }
    }
  }

  /** `publishStatus(status)`: nothing without a stored configuration or
      while disconnected; otherwise the five status messages, each through
      `publish`. */
  function PublishStatus(m: Manager, status: seq<Prop>): (r: Sent)
    ensures m.config.None? || !m.connected ==> r == Sent(true, [], [])
    ensures m.config.Some? && m.connected && m.client.Some? ==>
              r.calls == Retained(m.client.value, StatusMessages(m.config.value.baseTopic, status))
    ensures m.config.Some? && m.connected && m.client.None? ==>
              r.calls == [] && |r.logs| == 5 && forall i :: 0 <= i < 5 ==> r.logs[i].level == Warn
  {
    if m.config.None? || !m.connected then Sent(true, [], [])
    else
      var msgs := StatusMessages(m.config.value.baseTopic, status);
      PublishAllSends(m, msgs);
      var r := PublishAll(m, msgs);
      assert m.client.None? ==> forall i :: 0 <= i < 5 ==> r.logs[i].level == Warn by {
        if m.client.None? {
          PublishAllWarns(m, msgs);
        }
      }
      r
  }

  /** Without a client, every publish of a list is refused with a warning. */
  lemma {:induction false} PublishAllWarns(m: Manager, msgs: seq<(string, string)>)
    requires m.client.None?
    ensures forall i :: 0 <= i < |msgs| ==> PublishAll(m, msgs).logs[i].level == Warn
    decreases |msgs|
  {
    if msgs != [] {
      PublishAllWarns(m, msgs[1..]);
      var r := PublishAll(m, msgs);
      var rest := PublishAll(m, msgs[1..]);
      assert r.logs == PublishOne(m, msgs[0].0, msgs[0].1, true).logs + rest.logs;
      assert forall i :: 1 <= i < |msgs| ==> r.logs[i] == rest.logs[i - 1];
    }
  }

  /** `getStatus()`: the flag, the counter and the public part of the stored
      configuration. */
  function GetStatus(m: Manager): (r: JsValue)
    ensures r.JObj? && |r.props| == 3
    ensures Lookup(r.props, "connected") == Some(JBool(m.connected))
    ensures Lookup(r.props, "messageCount") == Some(JNum(m.messageCount))
    ensures m.config.None? ==> Lookup(r.props, "config") == Some(JNull)
    ensures m.config.Some? ==> Lookup(r.props, "config").Some? && Lookup(r.props, "config").value.JObj?
    ensures m.config.Some? ==>
              && Lookup(r.props, "config") == Some(JObj(PublicConfig(m.config.value)))
              && ReportsPublicFields(PublicConfig(m.config.value), m.config.value)
  {
    var cfg := match m.config
      case None => JNull
      case Some(c) => JObj(PublicConfig(c));
    var ps := [("connected", JBool(m.connected)), ("messageCount", JNum(m.messageCount)), ("config", cfg)];
    assert Lookup(ps[2..], "config") == Some(cfg);
    match m.config
    case None => JObj(ps)
    case Some(c) => PublicConfigFields(c); JObj(ps)
  }

  /** The configuration fields the status reports. */
  function PublicConfig(c: MqttConfig): seq<Prop> {
    [("enabled", JBool(c.enabled)), ("host", JStr(c.host)), ("port", JNum(c.port)),
     ("baseTopic", JStr(c.baseTopic)), ("clientId", JStr(c.clientId))]
  }

  /** Exactly five fields: `enabled`, `host`, `port`, `baseTopic` and
      `clientId` as configured, and neither credential. */
  predicate ReportsPublicFields(shown: seq<Prop>, c: MqttConfig) {
    && |shown| == 5
    && Lookup(shown, "enabled") == Some(JBool(c.enabled))
    && Lookup(shown, "host") == Some(JStr(c.host))
    && Lookup(shown, "port") == Some(JNum(c.port))
    && Lookup(shown, "baseTopic") == Some(JStr(c.baseTopic))
    && Lookup(shown, "clientId") == Some(JStr(c.clientId))
    && !HasKey(shown, "username") && !HasKey(shown, "password")
  }

  lemma PublicConfigFields(c: MqttConfig)
    ensures ReportsPublicFields(PublicConfig(c), c)
  {
    var shown := PublicConfig(c);
    LeadingFields(c);
    assert Lookup(shown, "port") == Lookup(shown[2..], "port");
    TrailingFields(c);
    NoCredentials(c);
  }

  lemma NoCredentials(c: MqttConfig)
    ensures !HasKey(PublicConfig(c), "username") && !HasKey(PublicConfig(c), "password")
  {
    var shown := PublicConfig(c);
    assert forall i :: 0 <= i < |shown| ==> shown[i].0 != "username" && shown[i].0 != "password";
  }

  lemma LeadingFields(c: MqttConfig)
    ensures Lookup(PublicConfig(c), "enabled") == Some(JBool(c.enabled))
    ensures Lookup(PublicConfig(c), "host") == Some(JStr(c.host))
  {
    assert "enabled" != "host";
  }

  lemma TrailingFields(c: MqttConfig)
    ensures var tail := PublicConfig(c)[2..];
            && Lookup(tail, "port") == Some(JNum(c.port))
            && Lookup(tail, "baseTopic") == Some(JStr(c.baseTopic))
            && Lookup(tail, "clientId") == Some(JStr(c.clientId))
  {
    var tail := PublicConfig(c)[2..];
    assert tail[0] == ("port", JNum(c.port));
    assert Lookup(tail[1..], "clientId") == Some(JStr(c.clientId));
  }

  // ---------------------------------------------------------------------------
  // Properties
  // ---------------------------------------------------------------------------

  /** Every transition keeps the handle bookkeeping. */
  lemma TransitionsKeepValid(m: Manager, c: MqttConfig, openThrows: Option<string>, from: nat, ev: LibEvent)
    requires Valid(m)
    ensures Valid(Disconnect(m).m)
    ensures Valid(Connect(m, c, openThrows).m)
    ensures from < |m.spawned| ==> Valid(OnEvent(m, from, ev).m)
  {
  }

  /** A second `disconnect` does nothing: the teardown is announced once. */
  lemma DisconnectIdempotent(m: Manager)
    ensures var d1 := Disconnect(m);
            var d2 := Disconnect(d1.m);
            d2 == Quiet(d1.m) && |d1.emitted| <= 1
  {
  }

  /** `connect` on a manager with a client begins with the complete teardown:
      the old client is ended and `disconnected` is emitted before anything
      else happens. */
  lemma ConnectTearsDown(m: Manager, c: MqttConfig, openThrows: Option<string>)
    requires m.client.Some?
    ensures var r := Connect(m, c, openThrows);
            && r.calls[0] == End(m.client.value)
            && r.emitted[0] == EDisconnected
            && r.logs[0] == Info0("Disconnecting from MQTT broker")
            && !r.m.connected
  {
  }

  /** A disabled configuration is stored but creates no client and opens no
      connection. */
  lemma ConnectDisabledCreatesNoClient(m: Manager, c: MqttConfig, openThrows: Option<string>)
    requires !c.enabled
    ensures var r := Connect(m, c, openThrows);
            && r.m.client.None? && r.m.config == Some(c)
            && (forall i :: 0 <= i < |r.calls| ==> !r.calls[i].Open?)
            && r.logs[|r.logs| - 1] == Info0("MQTT disabled in configuration")
  {
  }

  /** Every inbound message is counted once and handed on verbatim. */
  lemma MessageCountedAndRelayed(m: Manager, from: nat, topic: string, message: string)
    requires from < |m.spawned|
    ensures var r := OnEvent(m, from, LMessage(topic, message));
            r.m == m.(messageCount := m.messageCount + 1) && r.emitted == [EMessage(topic, message)]
  {
  }

  /** Client `from` fires `evs` in turn against the manager. */
  function Feed(m: Manager, from: nat, evs: seq<LibEvent>): (r: Manager)
    requires from < |m.spawned|
    ensures r.spawned == m.spawned
    decreases |evs|
  {
    if evs == [] then m else Feed(OnEvent(m, from, evs[0]).m, from, evs[1..])
  }

  function CountMessages(evs: seq<LibEvent>): nat
    decreases |evs|
  {
    if evs == [] then 0 else (if evs[0].LMessage? then 1 else 0) + CountMessages(evs[1..])
  }

  /** Over any run of library events, `messageCount` grows by exactly the
      number of messages, and the client and configuration stay put. */
  lemma {:induction false} MessageCountTracksMessages(m: Manager, from: nat, evs: seq<LibEvent>)
    requires from < |m.spawned|
    ensures Feed(m, from, evs).messageCount == m.messageCount + CountMessages(evs)
    ensures Feed(m, from, evs).client == m.client && Feed(m, from, evs).config == m.config
    decreases |evs|
  {
    if evs != [] {
      MessageCountTracksMessages(OnEvent(m, from, evs[0]).m, from, evs[1..]);
    }
  }

  /** A `close` fired by a client that has already been replaced still
      clears the flag of the manager, whose current client may be healthy:
      the handlers are bound to the manager, not to their client. */
  lemma LateCloseClearsConnected(m: Manager, stale: nat)
    requires stale < |m.spawned| && m.client != Some(stale)
    ensures var r := OnEvent(m, stale, LClose);
            !r.m.connected && r.m.client == m.client && r.emitted == [EDisconnected]
  {
  }

  /** The scenario in full: client 0 connects, a new configuration replaces
      it with client 1, client 1 connects, and then the torn-down client 0
      reports `close`. The manager ends up disconnected with client 1 still
      current, and publishing is refused. */
  lemma LateCloseScenario(a: MqttConfig, b: MqttConfig)
    requires a.enabled && b.enabled
    ensures var s1 := Connect(Fresh, a, None).m;
            var s2 := OnEvent(s1, 0, LConnect).m;
            var s3 := Connect(s2, b, None).m;
            var s4 := OnEvent(s3, 1, LConnect).m;
            var s5 := OnEvent(s4, 0, LClose).m;
            && s4.connected && s4.client == Some(1)
            && !s5.connected && s5.client == Some(1)
            && !PublishOne(s5, "t", "m", false).ok
  {
    var s1 := Connect(Fresh, a, None).m;
    assert s1.client == Some(0) && s1.spawned == [a];
    var s2 := OnEvent(s1, 0, LConnect).m;
    var s3 := Connect(s2, b, None).m;
    assert s3.spawned == [a, b] && s3.client == Some(1);
  }

  /** `getStatus` never depends on the user name or password. */
  lemma CredentialsNeverExposed(m: Manager, user: string, password: string)
    requires m.config.Some?
    ensures GetStatus(m.(config := Some(m.config.value.(username := user, password := password)))) == GetStatus(m)
  {
  }
}

=== FILE: server.dfy ===
/** The HTTP server's own logic (server/index.cjs): the bounded log buffer
    every logger call feeds, the log lines written for device-state events,
    and the two admin endpoints with real logic, `/admin/safe` and
    `/admin/logs`. Alpaca requests and discovery datagrams reach the device
    model through the same buffer. */
module Server {
  import opened Wrappers
  import opened JsValues
  import opened Logger
  import opened DeviceState
  import Alpaca
  import Discovery

  /** `MAX_LOGS` */
  const MaxLogs: nat := 500

  /** One buffered log record, `{ ts, level, msg, meta }`. */
  datatype LogEntry = LogEntry(ts: int, level: Level, msg: string, meta: Option<JsValue>)

  /** The clock as one handler sees it: `Date.now()` and the ISO text of
      `new Date().toISOString()`. */
  datatype Clock = Clock(millis: int, iso: string)

  /** The server's state: the device, the log buffer and the level filter. */
  datatype App = App(device: State, ring: seq<LogEntry>, logger: Logger)

  /** A server at start-up. */
  function Start(): (a: App)
    ensures a.ring == [] && a.logger == Initial && a.device == Init(None)
  {
    App(Init(None), [], Initial)
  }

  /** A step's result: the new server state and the console lines written. */
  datatype Out = Out(app: App, console: seq<ConsoleLine>)

  // ---------------------------------------------------------------------------
  // The log buffer
  // ---------------------------------------------------------------------------

  /** The last `MaxLogs` elements of a history (all of it when shorter). */
  function Recent(xs: seq<LogEntry>): (r: seq<LogEntry>)
    ensures |r| == if |xs| <= MaxLogs then |xs| else MaxLogs
    ensures r == xs[|xs| - |r|..]
  {
    if |xs| <= MaxLogs then xs else xs[|xs| - MaxLogs..]
  }

  /** `emitLog`'s buffer update: push, then drop the oldest entry once the
      bound is exceeded. */
  function Push(ring: seq<LogEntry>, e: LogEntry): (r: seq<LogEntry>)
    requires |ring| <= MaxLogs
    ensures r == Recent(ring + [e])
    ensures |r| <= MaxLogs && r[|r| - 1] == e
  {
    var grown := ring + [e];
    if |grown| > MaxLogs then grown[1..] else grown
  }

  /** `emitLog` applied to each entry in turn. */
  function PushAll(ring: seq<LogEntry>, es: seq<LogEntry>): (r: seq<LogEntry>)
    requires |ring| <= MaxLogs
    ensures |r| <= MaxLogs
    decreases |es|
  {
    if es == [] then ring else PushAll(Push(ring, es[0]), es[1..])
  }

  lemma RecentOfRecent(xs: seq<LogEntry>, ys: seq<LogEntry>)
    ensures Recent(Recent(xs) + ys) == Recent(xs + ys)
  {
    var k := |xs| - |Recent(xs)|;
    assert Recent(xs) + ys == (xs + ys)[k..];
  }

  /** However many entries are logged, the buffer holds exactly the most
      recent `MaxLogs` of everything logged, oldest first. */
  lemma {:induction false} BufferIsRecentHistory(ring: seq<LogEntry>, es: seq<LogEntry>)
    requires |ring| <= MaxLogs
    ensures PushAll(ring, es) == Recent(ring + es)
    decreases |es|
  {
    if es != [] {
      var grown := ring + [es[0]];
      var next := Push(ring, es[0]);
      BufferIsRecentHistory(next, es[1..]);
      RecentOfRecent(grown, es[1..]);
      SplitFirst(ring, es);
    }
  }

  lemma SplitFirst(ring: seq<LogEntry>, es: seq<LogEntry>)
    requires es != []
    ensures ring + [es[0]] + es[1..] == ring + es
  {
    assert [es[0]] + es[1..] == es;
  }

  // ---------------------------------------------------------------------------
  // The wrapped logger
  // ---------------------------------------------------------------------------

  function EntryOf(call: LogCall, clock: Clock): LogEntry {
    LogEntry(clock.millis, call.level, call.msg, call.meta)
  }

  function EntriesOf(calls: seq<LogCall>, clock: Clock): (r: seq<LogEntry>)
    ensures |r| == |calls|
    ensures forall i :: 0 <= i < |calls| ==> r[i] == EntryOf(calls[i], clock)
  {
    seq(|calls|, i requires 0 <= i < |calls| => EntryOf(calls[i], clock))
  }

  /** A wrapped `logger[level](msg, meta)`: the original writer (which may
      print nothing), then an unconditional `emitLog`. */
  function Emit(app: App, call: LogCall, clock: Clock): (o: Out)
    requires |app.ring| <= MaxLogs
    ensures o.app == app.(ring := Push(app.ring, EntryOf(call, clock)))
    ensures |o.console| == (if ShouldLog(app.logger, call.level) then 1 else 0)
    ensures ShouldLog(app.logger, call.level) ==> o.console == [Write(app.logger, call.level, call.msg, call.meta, clock.iso).value]
  {
    var line := Write(app.logger, call.level, call.msg, call.meta, clock.iso);
    Out(app.(ring := Push(app.ring, EntryOf(call, clock))), if line.Some? then [line.value] else [])
  }

  /** The number of calls the level filter admits. */
  function Admitted(lg: Logger, calls: seq<LogCall>): nat {
    if calls == [] then 0 else (if ShouldLog(lg, calls[0].level) then 1 else 0) + Admitted(lg, calls[1..])
  }

  /** The console lines the original writers print for `calls` at clock
      reading `ts`: one per admitted call, in order. */
  function Shown(lg: Logger, calls: seq<LogCall>, ts: string): seq<ConsoleLine> {
    if calls == [] then []
    else
      var w := Write(lg, calls[0].level, calls[0].msg, calls[0].meta, ts);
      (if w.Some? then [w.value] else []) + Shown(lg, calls[1..], ts)
  }

  /** Several wrapped logger calls in order. */
  function EmitAll(app: App, calls: seq<LogCall>, clock: Clock): (o: Out)
    requires |app.ring| <= MaxLogs
    ensures o.app.device == app.device && o.app.logger == app.logger && |o.app.ring| <= MaxLogs
    decreases |calls|
  {
    if calls == [] then Out(app, [])
    else
      var first := Emit(app, calls[0], clock);
      var rest := EmitAll(first.app, calls[1..], clock);
      Out(rest.app, first.console + rest.console)
  }

  /** Every logger call lands in the buffer, whatever the level filter lets
      through to the console; the console gets one line per admitted call. */
  lemma {:induction false} EveryCallBuffered(app: App, calls: seq<LogCall>, clock: Clock)
    requires |app.ring| <= MaxLogs
    ensures EmitAll(app, calls, clock).app.ring == Recent(app.ring + EntriesOf(calls, clock))
  {
    EmitAllPushes(app, calls, clock);
    BufferIsRecentHistory(app.ring, EntriesOf(calls, clock));
  }

  lemma {:induction false} EmitAllPushes(app: App, calls: seq<LogCall>, clock: Clock)
    requires |app.ring| <= MaxLogs
    ensures EmitAll(app, calls, clock).app.ring == PushAll(app.ring, EntriesOf(calls, clock))
    decreases |calls|
  {
    if calls != [] {
      var first := Emit(app, calls[0], clock);
      EmitAllPushes(first.app, calls[1..], clock);
      var es := EntriesOf(calls, clock);
      assert es[1..] == EntriesOf(calls[1..], clock);
      assert PushAll(app.ring, es) == PushAll(Push(app.ring, es[0]), es[1..]);
    }
  }

  /** The console gets exactly one line per call the level filter admits:
      the line the original writer prints. */
  lemma {:induction false} ConsoleShowsAdmitted(app: App, calls: seq<LogCall>, clock: Clock)
    requires |app.ring| <= MaxLogs
    ensures |EmitAll(app, calls, clock).console| == Admitted(app.logger, calls)
    ensures EmitAll(app, calls, clock).console == Shown(app.logger, calls, clock.iso)
    decreases |calls|
  {
    if calls != [] {
      var first := Emit(app, calls[0], clock);
      ConsoleShowsAdmitted(first.app, calls[1..], clock);
    }
  }

  /** Below the current level a call reaches the buffer and not the console. */
  lemma SuppressedCallStillBuffered(app: App, call: LogCall, clock: Clock)
    requires |app.ring| <= MaxLogs && !ShouldLog(app.logger, call.level)
    ensures var o := Emit(app, call, clock);
            o.console == [] && o.app.ring[|o.app.ring| - 1] == EntryOf(call, clock)
  {
  }

  // ---------------------------------------------------------------------------
  // State-event hooks
  // ---------------------------------------------------------------------------

  /** The log call each device-state event produces. */
  function EventLog(e: StateEvent): (c: LogCall)
    ensures c.level == (if e.HealthChanged? then Warn else Info)
    ensures c.meta.Some? && c.meta.value.JObj?
    ensures e.SafeChanged? ==>
              c.msg == "Safety state changed" &&
              c.meta.value.props == [("isSafe", JBool(e.isSafe)), ("reason", JStr(e.reason)), ("at", JStr(e.at))]
    ensures e.ClientConnectionChanged? ==>
              c.msg == "Client connection changed" &&
              c.meta.value.props == [("connected", JBool(e.connected)), ("source", JStr(e.source)), ("at", JStr(e.at))]
    ensures e.HealthChanged? ==> c.msg == "Health changed" && c.meta.value.props == [("health", e.health)]
  {
    match e
    case ClientConnectionChanged(connected, source, at) =>
      LogCall(Info, "Client connection changed",
              Some(JObj([("connected", JBool(connected)), ("source", JStr(source)), ("at", JStr(at))])))
    case SafeChanged(isSafe, reason, at) =>
      LogCall(Info, "Safety state changed", Some(JObj([("isSafe", JBool(isSafe)), ("reason", JStr(reason)), ("at", JStr(at))])))
    case HealthChanged(health) =>
      LogCall(Warn, "Health changed", Some(JObj([("health", health)])))
  }

  function EventLogs(es: seq<StateEvent>): (r: seq<LogCall>)
    ensures |r| == |es|
    ensures forall i :: 0 <= i < |es| ==> r[i] == EventLog(es[i])
  {
    seq(|es|, i requires 0 <= i < |es| => EventLog(es[i]))
  }

  // ---------------------------------------------------------------------------
  // Alpaca and discovery traffic
  // ---------------------------------------------------------------------------

  /** One Alpaca request: the router's effect on the device, then one log
      line per state event, in emission order. */
  function ServeAlpaca(app: App, req: Alpaca.Request, clock: Clock, numberOf: string -> NumView): (r: (Out, Alpaca.Response))
    requires |app.ring| <= MaxLogs
    ensures var h := Alpaca.Handle(app.device, req, clock.iso, numberOf);
            && r.0.app.device == h.state && r.1 == h.response
            && r.0.app.ring == Recent(app.ring + EntriesOf(EventLogs(h.events), clock))
            && r.0.app.logger == app.logger
            && r.0.console == Shown(app.logger, EventLogs(h.events), clock.iso)
            && |r.0.console| == Admitted(app.logger, EventLogs(h.events))
  {
    var h := Alpaca.Handle(app.device, req, clock.iso, numberOf);
    var o := EmitAll(app.(device := h.state), EventLogs(h.events), clock);
    EveryCallBuffered(app.(device := h.state), EventLogs(h.events), clock);
    ConsoleShowsAdmitted(app.(device := h.state), EventLogs(h.events), clock);
    (o, h.response)
  }

  /** One discovery datagram: the sends, and the responder's log calls
      through the buffer. The device is not involved. */
  function ServeDiscovery(app: App, msg: seq<Discovery.Byte>, sender: Discovery.Sender, httpPort: int,
                          fault: Discovery.SendFault, clock: Clock): (r: (Out, seq<Discovery.Send>))
    requires |app.ring| <= MaxLogs
    ensures r.0.app.device == app.device
    ensures r.1 == Discovery.OnMessage(msg, sender, httpPort, fault).sends
    ensures !Discovery.IsDiscoveryRequest(msg) ==> r.0.app.ring == app.ring && r.1 == []
    ensures r.0.app.ring == Recent(app.ring + EntriesOf(Discovery.OnMessage(msg, sender, httpPort, fault).logs, clock))
    ensures r.0.app.logger == app.logger
    ensures var logs := Discovery.OnMessage(msg, sender, httpPort, fault).logs;
            r.0.console == Shown(app.logger, logs, clock.iso) && |r.0.console| == Admitted(app.logger, logs)
  {
    var reaction := Discovery.OnMessage(msg, sender, httpPort, fault);
    EveryCallBuffered(app, reaction.logs, clock);
    ConsoleShowsAdmitted(app, reaction.logs, clock);
    (EmitAll(app, reaction.logs, clock), reaction.sends)
  }

  // ---------------------------------------------------------------------------
  // POST /admin/safe
  // ---------------------------------------------------------------------------

  /** The admin endpoints' JSON reply. */
  datatype AdminReply = AdminReply(status: nat, body: JsValue)

  /** The `safe` field after the string normalisation of the handler. */
  function NormalisedSafe(safe: Option<JsValue>): Option<JsValue> {
    match safe
    case Some(JStr(s)) => Some(JStr(AsciiLower(Trim(s))))
    case _ => safe
  }

  /** The boolean `/admin/safe` reads from `safe`: JSON true and false, the
      numbers 1 and 0, and the same spellings `PUT connected` accepts, after
      trimming and lower-casing; anything else is refused. */
  function ParseSafe(safe: Option<JsValue>): (r: Option<bool>)
    ensures r == Some(true) <==> safe == Some(JBool(true)) || safe == Some(JNum(1)) ||
                                 (safe.Some? && safe.value.JStr? && Alpaca.IsTrueText(AsciiLower(Trim(safe.value.s))))
    ensures r == Some(false) <==> safe == Some(JBool(false)) || safe == Some(JNum(0)) ||
                                  (safe.Some? && safe.value.JStr? && Alpaca.IsFalseText(AsciiLower(Trim(safe.value.s))))
  {
    var v := NormalisedSafe(safe);
    if v == Some(JBool(true)) || v == Some(JNum(1)) || (v.Some? && v.value.JStr? && Alpaca.IsTrueText(v.value.s)) then Some(true)
    else if v == Some(JBool(false)) || v == Some(JNum(0)) || (v.Some? && v.value.JStr? && Alpaca.IsFalseText(v.value.s)) then Some(false)
    else None
  }

  /** `typeof body.reason === 'string' ? body.reason : 'admin'` */
  function AdminReason(body: JsValue): (r: string)
    ensures Get(body, "reason").Some? && Get(body, "reason").value.JStr? ==> r == Get(body, "reason").value.s
    ensures !(Get(body, "reason").Some? && Get(body, "reason").value.JStr?) ==> r == "admin"
  {
    match Get(body, "reason")
    case Some(JStr(s)) => s
    case _ => "admin"
  }

  /** `POST /admin/safe` with the parsed request body (`req.body || {}`). */
  function AdminSafe(app: App, reqBody: Option<JsValue>, clock: Clock): (r: (Out, AdminReply))
    requires |app.ring| <= MaxLogs
    ensures var body := if Truthy(reqBody) then reqBody.value else JObj([]);
            var parsed := ParseSafe(Get(body, "safe"));
            && (parsed.None? ==>
                  r.0 == Out(app, []) &&
                  r.1 == AdminReply(400, JObj([("ok", JBool(false)), ("error", JStr("safe must be boolean"))])))
            && (parsed.Some? ==>
                  var m := SetSafe(app.device, Some(JBool(parsed.value)), Some(AdminReason(body)), clock.iso);
                  && r.0.app.device == m.state
                  && r.0.app.device.isSafe == parsed.value
                  && r.1 == AdminReply(200, JObj([("ok", JBool(true)), ("isSafe", JBool(parsed.value))]))
                  && var calls := EventLogs(m.events) + [LogCall(Info, "Safety set via admin",
                                    Some(JObj([("isSafe", JBool(parsed.value)), ("reason", JStr(AdminReason(body)))])))];
                  && r.0.app.ring == Recent(app.ring + EntriesOf(calls, clock))
                  && r.0.app.logger == app.logger
                  && r.0.console == Shown(app.logger, calls, clock.iso)
                  && |r.0.console| == Admitted(app.logger, calls))
  {
    var body := if Truthy(reqBody) then reqBody.value else JObj([]);
    match ParseSafe(Get(body, "safe"))
    case None => (Out(app, []), AdminReply(400, JObj([("ok", JBool(false)), ("error", JStr("safe must be boolean"))])))
    case Some(safe) =>
      var reason := AdminReason(body);
      var m := SetSafe(app.device, Some(JBool(safe)), Some(reason), clock.iso);
      var done := LogCall(Info, "Safety set via admin", Some(JObj([("isSafe", JBool(m.state.isSafe)), ("reason", JStr(reason))])));
      var calls := EventLogs(m.events) + [done];
      EveryCallBuffered(app.(device := m.state), calls, clock);
      ConsoleShowsAdmitted(app.(device := m.state), calls, clock);
      (EmitAll(app.(device := m.state), calls, clock), AdminReply(200, JObj([("ok", JBool(true)), ("isSafe", JBool(m.state.isSafe))])))
  }

  /** Padding and letter case do not matter to `/admin/safe`. */
  lemma PaddedUpperCaseTrue()
    ensures ParseSafe(Some(JStr(" TRUE "))) == Some(true)
  {
    TrimExact(" ", "TRUE", " ");
    assert " " + "TRUE" + " " == " TRUE ";
    assert AsciiLower("TRUE") == "true";
  }

  /** Numbers other than 0 and 1 and a missing field are refused. */
  lemma OtherValuesRefused()
    ensures ParseSafe(Some(JNum(2))).None? && ParseSafe(None).None? && ParseSafe(Some(JNull)).None?
  {
  }

  /** A word is refused unless, trimmed and lower-cased, it reads "true",
      "1", "false" or "0"; "yes" is one such word. */
  lemma WordRefused(w: string)
    requires !Alpaca.IsTrueText(AsciiLower(Trim(w))) && !Alpaca.IsFalseText(AsciiLower(Trim(w)))
    ensures ParseSafe(Some(JStr(w))).None?
  {
  }

  lemma YesRefused()
    ensures ParseSafe(Some(JStr("yes"))).None?
  {
    YesIsTrimmed();
    YesIsNoBoolean();
    WordRefused("yes");
  }

  lemma YesIsTrimmed()
    ensures Trim("yes") == "yes"
  {
    TrimExact("", "yes", "");
    assert "" + "yes" + "" == "yes";
  }

  lemma YesIsNoBoolean()
    ensures AsciiLower("yes") == "yes"
    ensures !Alpaca.IsTrueText("yes") && !Alpaca.IsFalseText("yes")
  {
  }

  // ---------------------------------------------------------------------------
  // GET /admin/logs
  // ---------------------------------------------------------------------------

  /** `Math.max(0, Math.min(1000, Number(n || 200)))` seen through its
      integer part; None is NaN. Clamping and truncation commute here, and
      `slice` truncates its argument, so the integer part is all that matters. */
  function LogsRequested(n: Option<JsValue>, numberOf: string -> NumView): (k: Option<nat>)
    ensures !Truthy(n) ==> k == Some(200)
    ensures k.Some? ==> k.value <= 1000
    ensures Truthy(n) && ToNumber(n, numberOf).Finite? ==>
              var t := ToNumber(n, numberOf).trunc;
              k == Some(if t < 0 then 0 else if t > 1000 then 1000 else t)
    ensures Truthy(n) ==> (k.None? <==> ToNumber(n, numberOf).NaN?)
    ensures Truthy(n) && ToNumber(n, numberOf).Infinite? ==> k == Some(if ToNumber(n, numberOf).negative then 0 else 1000)
  {
    var x := if Truthy(n) then ToNumber(n, numberOf) else Finite(200);
    match x
    case NaN => None
    case Infinite(negative) => Some(if negative then 0 else 1000)
    case Finite(t) => Some(if t < 0 then 0 else if t > 1000 then 1000 else t)
  }

  /** `GET /admin/logs?n=…`: `logBuffer.slice(-n)`. Because `-0` and NaN both
      slice from the start, zero and a non-numeric `n` return the whole buffer. */
  function AdminLogs(app: App, n: Option<JsValue>, numberOf: string -> NumView): (r: seq<LogEntry>)
    ensures var k := LogsRequested(n, numberOf);
            && |r| <= |app.ring| && r == app.ring[|app.ring| - |r|..]
            && (k.None? || k == Some(0) ==> r == app.ring)
            && (k.Some? && k.value > 0 ==> |r| == if k.value < |app.ring| then k.value else |app.ring|)
  {
    match LogsRequested(n, numberOf)
    case None => app.ring
    case Some(k) =>
      if k == 0 then app.ring
      else if k >= |app.ring| then app.ring
      else app.ring[|app.ring| - k..]
  }

  /** Without `n` the last 200 entries are returned, or all of them when
      there are fewer. */
  lemma AdminLogsDefault(app: App, numberOf: string -> NumView)
    ensures var r := AdminLogs(app, None, numberOf);
            |r| == (if |app.ring| < 200 then |app.ring| else 200) && r == app.ring[|app.ring| - |r|..]
  {
  }
}

=== FILE: wrappers.dfy ===
/** Failure-compatible wrappers used across the model: `Option` stands for a
    JavaScript value that may be `undefined`, `Result` for a computation that
    may throw. */
module Wrappers {

  datatype Option<+T> = None | Some(value: T) {

    predicate IsFailure() {
      None?
    }

    function PropagateFailure<U>(): Option<U>
      requires None?
    {
      None
    }

    function Extract(): T
      requires Some?
    {
      value
    }

    /** The value, or `default` when absent (JavaScript's `??` for undefined). */
    function GetOr(default: T): T {
      match this
      case Some(v) => v
      case None => default
    }
  }

  datatype Result<+R, +E> = Success(value: R) | Failure(error: E) {

    predicate IsFailure() {
      Failure?
    }

    function PropagateFailure<U>(): Result<U, E>
      requires Failure?
    {
      Failure(error)
    }

    function Extract(): R
      requires Success?
    {
      value
    }
  }
}
